=== FILE: README.md ===
# Worker side of the NANDA Node.js bridge, in Dafny

The bridge's Python worker, `python/bridge_wrapper.py`, reads one JSON command
per line on standard input and writes one JSON object per line on standard
output. This project models the worker's sequential logic.

- **State.** A `NodeJSBridge` holds three things: which improvement logic is
  installed (none, the wrapper registered from Node.js, or the default one),
  whether a NANDA instance exists, and the `running` flag. The model keeps
  these in an immutable `State` record of the `Bridge` module.
- **Commands.** `handle_command` routes seven commands to their handlers.
  Each handler is a pure step from a state to the next state and the dict it
  returns. The dict becomes the reply envelope: `{id, status, result, error}`
  for most commands, `{id, status, result}` for `shutdown`, and
  `{id, status, error, traceback}` when dispatching raises.
- **Improvement logic.** The registered wrapper picks a transform from the
  lower-cased logic name. `pirate` replaces words. `professional` frames the
  text with a greeting and a sign-off. Any other name strips the text and
  capitalizes it. The default logic installed by `create_nanda_instance` is
  the strip-and-capitalize transform, without the wrapper's exception guard.
- **Line loop.** `main` is a left fold over the input lines:
  - a blank line is skipped;
  - a line that does not decode gets the id-less `Invalid JSON message` error;
  - a decoded value is handed to `handle_command`;
  - a value that is not an object makes `handle_command` raise, and the loop
    answers that with its own error object;
  - `shutdown` is answered once, and then the process exits.

Modules:

| module | file | contents |
|---|---|---|
| `PyText` | `pytext.dfy` | `str.strip` over Python's whitespace set, `lower`, `capitalize`, `in`, `replace`, and `str(int)` |
| `Json` | `json.dfy` | decoded values, the dicts `json.loads` builds from them, `dict.get`, truthiness, `str()`/`repr`, and `AttributeError` texts |
| `Improvement` | `improvement.dfy` | the logic kinds, the three transforms, and calling a logic |
| `Wire` | `wire.dfy` | the output objects, with their encoding and its inverse |
| `Bridge` | `bridge.dfy` | the state, the handlers, routing and `handle_command` |
| `MainLoop` | `loop.dfy` | the fold over input lines, and a loop method that computes it |

The foreign parts are parameters of the model, collected in `Env`:

- whether the `NANDA(...)` constructor raises, and with what message;
- the text `traceback.format_exc()` returns.

Each input line carries its own `Env`, so the constructor may succeed for
one command and raise for the next.

A decoded object is a list of members. `Json.Load` turns it into a Python
dict: a repeated key keeps its first position (`Json.CollapseKeys`) and its
last value (`Json.CollapseGet`). Every object the commands see, and every
object they echo back, has unique keys at every depth (`Json.LoadDicts`).

`handle_command` dispatches `start_server` with the command's data, but
`start_server` (lines 122-143) takes no argument besides `self`. Every
`start_server` command therefore raises a `TypeError`, which the `except`
clause of `handle_command` answers. The model follows the code here: the
handler body is never reached.

## Model

| member | source | states |
|---|---|---|
| PyText.Strip | python/bridge_wrapper.py:304-305 | `strip()` yields a slice of the line with only whitespace around it. That slice has no whitespace at either end. It is empty exactly when the line is all whitespace, which is the loop's blank-line test. |
| PyText.StripTrimmed | python/bridge_wrapper.py:91 | A string with no whitespace at either end is its own `strip()`. |
| PyText.CapitalizeFacts | python/bridge_wrapper.py:91 | `capitalize()` keeps the length and every character up to case, so every whitespace position too, and its result is capitalized. A capitalized string is unchanged by it. |
| PyText.CapitalizedUnique | python/bridge_wrapper.py:91 | Those facts determine `capitalize()`: a capitalized string equal to `t` up to case is `t.capitalize()`. |
| PyText.ContainsAt | python/bridge_wrapper.py:85-87 | The left-to-right scan used for Python's `in` holds exactly when the pattern occurs at some index. |
| PyText.ReplaceAbsent | python/bridge_wrapper.py:86 | `replace` leaves a string without the pattern unchanged. |
| PyText.ReplaceFirst | python/bridge_wrapper.py:86 | `replace(pat, rep)` rewrites the first occurrence of `pat` into `rep`, keeps the text before it, and goes on after it. With `ReplaceAbsent`, this fixes the result of `replace` on every string. |
| PyText.ReplaceAvoids | python/bridge_wrapper.py:86 | When the replacement text cannot complete an occurrence of `pat` (`SafeFor`), no occurrence of `pat` is left after `replace(pat, rep)`; `ahoy` and `Ahoy` are such texts for `hello` and `Hi`. The same holds for any `q` the replacement text cannot complete and that was absent before. A replacement that can complete `pat` may leave one, as `str.replace` does. |
| PyText.NatToStr | python/bridge_wrapper.py:280 | `str(n)` is a non-empty string of decimal digits whose value is `n`, with no leading zero unless `n` is 0. |
| Json.Get | python/bridge_wrapper.py:254-256 | `dict.get` finds a key exactly when some member has it. The value returned belongs to the last member with that key. |
| Json.GetUnique | python/bridge_wrapper.py:254-256 | When only one member has the key, `get` returns that member's value. |
| Json.InsertFacts | python/bridge_wrapper.py:309 | Storing a member into a dict without repeated keys keeps the keys unique and in place, and a new key goes last. Afterwards the key is present, `get` on it returns the new value, and `get` on every other key is unchanged. |
| Json.Collapse | python/bridge_wrapper.py:309 | Building a dict from a member list leaves no repeated key. |
| Json.CollapseKeys | python/bridge_wrapper.py:309 | The dict built from a member list holds each key once, at the place where the key first appeared. |
| Json.CollapseFrom | python/bridge_wrapper.py:309 | Every member of the built dict comes from the member list. |
| Json.CollapseGet | python/bridge_wrapper.py:309 | The dict built from a member list has the same keys as the list. Every `get` on it returns what `get` returns on the list: the last duplicate's value. |
| Json.CollapseUnique | python/bridge_wrapper.py:309 | A member list without repeated keys is already its own dict, in the same order. |
| Json.Load | python/bridge_wrapper.py:309 | `json.loads` keeps the Python type of the value, and the object it returns has unique keys. |
| Json.LoadDicts | python/bridge_wrapper.py:309 | Every object `json.loads` returns is a dict at every depth: no object inside the value, however nested, has a repeated key. |
| Json.LoadGet | python/bridge_wrapper.py:309 | `get` on a loaded object finds a key exactly when the parsed document has it, and returns the loaded value of the last member with that key. |
| Json.LoadGetOr | python/bridge_wrapper.py:254-256 | `get` with a default on a loaded object is the loaded `get` on the parsed document. |
| Json.ReprString | python/bridge_wrapper.py:280 | `repr` of a string is enclosed in a matching pair of quotes. The quote is a double quote exactly when the text holds a single quote and no double quote. The text between the quotes reads back, escape by escape, as the string itself. |
| Json.Repr | python/bridge_wrapper.py:280 | `repr` of a value is never empty, and its first character tells which kind of value it shows: `[` a list, `{` a dict, a quote a string, a digit or `-` an integer, `N` `None`. A string reads back from between the quotes, and an integer is its sign and decimal digits. |
| Improvement.PirateText | python/bridge_wrapper.py:86 | The pirate transform leaves no `hello` and no `Hi` in the text, not even one that the replacements could have formed. |
| Improvement.PirateReplacesHello | python/bridge_wrapper.py:86 | A `hello` becomes `ahoy`, and the text around it is kept, when nothing else in the text needs replacing. |
| Improvement.PirateReplacesHi | python/bridge_wrapper.py:86 | A `Hi` becomes `Ahoy`, and the text around it is kept, when nothing else in the text needs replacing. |
| Improvement.PlainText | python/bridge_wrapper.py:91 | Strip-and-capitalize yields a text with no whitespace at either end that is capitalized and equals the stripped input up to case. With `PyText.CapitalizedUnique`, this fixes the result. |
| Improvement.StyleChoice | python/bridge_wrapper.py:85-91 | The choice of transform ignores case. A name containing `pirate` always selects the pirate transform. The professional transform is selected exactly when the name contains `professional` and not `pirate`. |
| Improvement.PirateFixedPoints | python/bridge_wrapper.py:86 | The pirate transform leaves a text unchanged exactly when it contains neither `hello` nor `Hi`. Applying it twice is the same as applying it once. |
| Improvement.ProfessionalText | python/bridge_wrapper.py:88 | The text can be read back out of the professional frame. |
| Improvement.PlainFixedPoints | python/bridge_wrapper.py:91 | Strip-and-capitalize leaves a text unchanged exactly when the text has no whitespace at either end and is already capitalized. Applying it twice is the same as applying it once. |
| Improvement.Apply | python/bridge_wrapper.py:78-111 | The registered wrapper always returns, because it swallows every exception. The default logic raises exactly when the text is not a string. |
| Improvement.WrapperResult | python/bridge_wrapper.py:78-95 | For the professional style, `str(text)` can be read back out of the result. For the pirate style on a string, the result is the pirate transform of the text: it has no `hello` and no `Hi`, and it equals the text exactly when the text had neither. For the plain style on a string, the result is stripped, capitalized, and equal to the stripped text up to case. Outside the professional style, a non-string text comes back unchanged. |
| Improvement.LogicResult | python/bridge_wrapper.py:78-111 | On a non-string text, the wrapper returns while the default logic raises. On a string, the default logic agrees with a wrapper whose name selects the plain style. |
| Wire.Encode | python/bridge_wrapper.py:48-70 | Every output the worker writes is an object with the keys in source order. Decoding that object gives the output back, so no two kinds of output look alike. |
| Wire.SendEvent | python/bridge_wrapper.py:64-70 | An event is tagged `'event'` and carries no `id`, and it decodes back to its name and data. |
| Bridge.FieldsLookup | python/bridge_wrapper.py:283-288 | In each handler dict, the `status`, `message` and `error` keys that `handle_command` reads hold what the handler put there, or are absent. |
| Bridge.Respond | python/bridge_wrapper.py:282-288 | The reply envelope echoes the id and copies the status. `result` is the handler's message when that is non-empty, and the whole dict otherwise. `error` is the handler's error, or `None`. |
| Bridge.FailedReply | python/bridge_wrapper.py:283-288 | A failed handler is answered with its whole dict and its error. |
| Bridge.ImprovedReply | python/bridge_wrapper.py:214-217 | A `test_improvement` success is answered with its whole dict and no error. |
| Bridge.RegisterImprovementLogic | python/bridge_wrapper.py:72-101 | Registration fails exactly when the data is not a dict, and then changes nothing. Otherwise it installs a wrapper. It never touches the instance or the `running` flag. |
| Bridge.CreateNandaInstance | python/bridge_wrapper.py:103-120 | Afterwards some logic is installed, and a registered logic is kept. An instance exists exactly when one existed or the constructor succeeded. The call fails exactly when the constructor raises. `running` is untouched. |
| Bridge.StartServerApi | python/bridge_wrapper.py:145-202 | A registered logic is kept. An instance exists exactly when one existed or the constructor succeeded, and `running` is set in the same cases. The reply is a success exactly when there is an instance and the config is a dict; every other outcome is an error. |
| Bridge.TestImprovement | python/bridge_wrapper.py:204-220 | The reply is an improved message or an error. It is an error when no logic is registered or the data is not a dict. With the wrapper installed and dict data, it always succeeds. |
| Bridge.Route | python/bridge_wrapper.py:259-280 | A command is recognised exactly when it is one of the seven names, and each recognised command was sent as its own name. |
| Bridge.RouteNames | python/bridge_wrapper.py:259-272 | Each of the seven names routes to its own handler. |
| Bridge.Dispatch | python/bridge_wrapper.py:259-280 | `test_improvement`, `get_status` and an unknown command leave the state alone. Only registration replaces an installed logic. No handler breaks the invariant that a running server implies an instance and an instance implies some logic. |
| Bridge.HandleCommand | python/bridge_wrapper.py:251-296 | A message that is not a dict makes `handle_command` raise `AttributeError: '<type>' object has no attribute 'get'` out of its own `except` clause. A dict whose command is `shutdown`, and only such a dict, ends the process. |
| Bridge.OneReplyEchoingId | python/bridge_wrapper.py:251-296 | Every object message gets exactly one reply, and that reply echoes `id`. Only `shutdown` ends the process. The standard envelope is used for every command except `shutdown` and `start_server`. |
| Bridge.StartServerAlwaysFails | python/bridge_wrapper.py:259-296 | `start_server` always gets the same `TypeError` reply, with the id and the traceback, and the state does not change. |
| Bridge.UnknownCommandRejected | python/bridge_wrapper.py:279-288 | An unrecognised command gets the error `Unknown command: ` followed by `str(command)`, and the state does not change. |
| Bridge.RegisterInstallsWrapper | python/bridge_wrapper.py:72-101 | Registration installs the wrapper for the given name, defaulting to `nodejs_custom`, and leaves both flags unchanged. The reply names the logic. Data that is not an object is rejected with its `AttributeError`, and nothing changes. |
| Bridge.TestImprovementApplies | python/bridge_wrapper.py:204-220 | Data that is not a dict is rejected with its `AttributeError`. With no logic, `test_improvement` fails with `No improvement logic registered`. Otherwise it answers with the logic applied to `message` (default `''`), or with the error the logic raised. The state never changes. |
| Bridge.StartServerApiStarts | python/bridge_wrapper.py:145-198 | After a successful `start_server_api`, the instance exists and the server runs. The default logic is installed only if none was registered. The link is the registry URL plus `agent_id` (default `'default'`). The reply carries only the message. |
| Bridge.StartServerApiConstructorFails | python/bridge_wrapper.py:103-152 | When the NANDA constructor raises, its message is the error. The default logic stays installed, and no instance exists. |
| Bridge.StatusReport | python/bridge_wrapper.py:222-230 | The status dict has `bridge_running` true, and it mirrors the instance, running and logic flags. |
| Bridge.StatusMirrorsState | python/bridge_wrapper.py:222-230 | `get_status` answers with the whole status dict and changes nothing. |
| Bridge.StopServerIdempotent | python/bridge_wrapper.py:232-241 | `stop_server` clears only `running`. A second stop changes nothing and gets the same reply. |
| Bridge.ShutdownStops | python/bridge_wrapper.py:243-278 | `shutdown` has the state effect of `stop_server`. It sends one reply holding the whole dict, with no `error` key, and then exits. |
| Bridge.CommandsKeepConsistency | python/bridge_wrapper.py:251-296 | No message handled by `handle_command` breaks that invariant. |
| MainLoop.Feed | python/bridge_wrapper.py:303-321 | One line appends one output, or none for a blank line or after exit. Nothing is overwritten, and after exit nothing changes. The process exits on this line exactly when the line decodes to a `shutdown` command. Which output it appends is stated by `MainLoop.DecodedLineAnswered` and `MainLoop.InvalidLineRecovers`. |
| MainLoop.DecodedLineAnswered | python/bridge_wrapper.py:303-321 | A decoded line is answered with the reply `handle_command` writes, and reading goes on from the state it leaves; after `shutdown`, nothing more is read. A value that is not a dict is answered by the loop with the `AttributeError` text and the traceback. |
| MainLoop.Run | python/bridge_wrapper.py:303-321 | The loop only appends to what has been written. Once the process has exited, later lines change nothing. |
| MainLoop.Main | python/bridge_wrapper.py:298-321 | The ready signal is written first. The state stays consistent. Until exit, every non-blank line gets exactly one output, and `MainLoop.DecodedLineAnswered` says which one. |
| MainLoop.RunAppend | python/bridge_wrapper.py:303 | Feeding two stretches of input is the same as feeding the first and then the second. |
| MainLoop.OneOutputPerNonBlankLine | python/bridge_wrapper.py:303-321 | Until exit, each non-blank line gets exactly one output and blank lines get none. |
| MainLoop.InvalidLineRecovers | python/bridge_wrapper.py:311-315 | An undecodable line gets the id-less error. The lines after it are handled as if it had not been there. |
| MainLoop.ShutdownEndsInput | python/bridge_wrapper.py:271-278 | A `shutdown` line stops the server and gets one reply carrying the request's id, and nothing after it is read. |
| MainLoop.FeedKeepsConsistency | python/bridge_wrapper.py:303-321 | One line never breaks the state invariant. |
| MainLoop.RunKeepsConsistency | python/bridge_wrapper.py:298-321 | The loop keeps the state invariant. |
| MainLoop.StopReading | python/bridge_wrapper.py:303 | Stopping at the end of input or at the first exit gives the same session as reading every line. |
| MainLoop.ServeLine | python/bridge_wrapper.py:303-321 | The loop body writes exactly what one step of the fold says, and keeps the invariant. |
| MainLoop.Serve | python/bridge_wrapper.py:298-326 | The loop, which stops reading at the first exit, writes exactly what `main` folds to and ends in a consistent state. |

## Left out

- The NANDA library is not part of this model: its constructor, `start_server` and `start_server_api`. The constructor's outcome is a parameter.
- The daemon threads, the `server_error` events they send (lines 130-134, 154-183) and the `sys.stdout` redirection are left out, because they are concurrency and I/O. Such an event can appear between replies; the model writes none.
- JSON parsing is not modelled. Each line comes with the document `json.loads` parsed from it, or a decode error; `Json.Load` then builds the dicts from that document. The splitting of standard input into lines is not modelled either.
- The `send_response` fallback at lines 58-62 is not modelled. Every value the worker writes comes from decoded JSON or from fixed strings, so `json.dumps` does not fail on it.
- JSON numbers are integers only. Floats, with their `repr` and their non-finite values, are left out.
- Json.Repr: for lists and dicts the contract states only the opening bracket. The items, each shown by `repr` and joined by `, `, are defined by the function but not stated by a contract.
- The case mappings of `lower` and `capitalize` cover ASCII letters only. `repr` escapes only the ASCII control characters.
- The traceback text is an opaque parameter.
- `sys.exit` is modelled as a terminal state. The `sys.path` set-up, the import-failure exit, logging and the stderr prints are process plumbing.
- `KeyboardInterrupt` is left out, as are exceptions other than decode errors raised by `json.loads` itself, such as deep-nesting `RecursionError`.
- The body of `start_server` (lines 122-143) is left out, because no command reaches it.
- A NANDA instance that already exists keeps the logic it was built with when a new one is registered. The model tracks only the registered logic.
- Bridge.StartServerAlwaysFails: the error text follows the wording of CPython 3.10 and later. Earlier versions omit the class name.
- The Node-side controller, correlator, timeouts and process supervision are not part of this model.

=== FILE: bridge.dfy ===
/**
  The worker side of the bridge: `NodeJSBridge` (python/bridge_wrapper.py:38-296)
  as an immutable state record and a pure step from a decoded command to the
  next state and the one object written in reply.

  The NANDA library is not part of this model. Its constructor succeeds or
  raises as the environment says; the server threads it starts are not
  modelled, only the flags the bridge sets around them.
 */
module Bridge {
  import opened PyText
  import opened Json
  import opened Improvement
  import opened Wire

  /** The three attributes of `NodeJSBridge` the commands read and write:
      `improvement_logic`, whether `nanda_instance` is set, and `running`. */
  datatype State = State(logic: Logic, nanda: bool, running: bool)

  /** The state `__init__` leaves. */
  const Initial := State(NoLogic, false, false)

  /** What the code around the bridge decides: whether `NANDA(...)` raises,
      with which message, and the text `traceback.format_exc()` yields. */
  datatype Env = Env(nandaFailure: Option<string>, traceback: string)

  /** The dict a handler returns, by kind. */
  datatype Outcome =
    | Done(message: string)
    | ApiStarted(link: string)
    | Improved(improved: Value)
    | Report(nandaInitialized: bool, serverRunning: bool, logicRegistered: bool)
    | Failed(error: string)

  function StatusOf(o: Outcome): Status {
    if o.Failed? then Error else Success
  }

  const ApiStartedMessage := "API server started"

  /** The handler's dict, keys in the order the source writes them. */
  function Fields(o: Outcome): seq<Member> {
    var status := Member("status", JStr(StatusText(StatusOf(o))));
    match o
    case Done(m) => [status, Member("message", JStr(m))]
    case ApiStarted(link) =>
      [status, Member("message", JStr(ApiStartedMessage)), Member("enrollment_link", JStr(link))]
    case Improved(v) => [status, Member("improved_message", v)]
    case Report(n, r, l) =>
      [status, Member("bridge_running", JBool(true)), Member("nanda_initialized", JBool(n)),
       Member("server_running", JBool(r)), Member("improvement_logic_registered", JBool(l))]
    case Failed(e) => [status, Member("error", JStr(e))]
  }

  /** The three keys `handle_command` reads from a handler's dict. */
  lemma FieldsLookup(o: Outcome)
    ensures Get(Fields(o), "status") == Some(JStr(StatusText(StatusOf(o))))
    ensures Get(Fields(o), "message")
            == (if o.Done? then Some(JStr(o.message)) else if o.ApiStarted? then Some(JStr(ApiStartedMessage)) else None)
    ensures Get(Fields(o), "error") == (if o.Failed? then Some(JStr(o.error)) else None)
  {
    StatusLookup(o);
    MessageLookup(o);
    ErrorLookup(o);
  }

  lemma StatusLookup(o: Outcome)
    ensures Get(Fields(o), "status") == Some(JStr(StatusText(StatusOf(o))))
  {
    GetUnique(Fields(o), "status", 0);
  }

  lemma MessageLookup(o: Outcome)
    ensures Get(Fields(o), "message")
            == (if o.Done? then Some(JStr(o.message)) else if o.ApiStarted? then Some(JStr(ApiStartedMessage)) else None)
  {
    if o.Done? || o.ApiStarted? {
      GetUnique(Fields(o), "message", 1);
    } else {
      assert !HasKey(Fields(o), "message");
    }
  }

  lemma ErrorLookup(o: Outcome)
    ensures Get(Fields(o), "error") == (if o.Failed? then Some(JStr(o.error)) else None)
  {
    if o.Failed? {
      GetUnique(Fields(o), "error", 1);
    } else {
      assert !HasKey(Fields(o), "error");
    }
  }

  /** The reply `handle_command` writes for a handler's dict: `result` is the
      dict's `message` when that is truthy and the whole dict otherwise, and
      `error` is the dict's `error`, or `None`. So a success that carries a
      message is answered with that message alone. */
  function Respond(id: Value, o: Outcome): (r: Output)
    ensures r.Reply? && r.id == id && r.status == StatusOf(o)
    ensures o.Done? ==> r.result == (if o.message != [] then JStr(o.message) else JObj(Fields(o)))
    ensures o.ApiStarted? ==> r.result == JStr(ApiStartedMessage)
    ensures o.Improved? || o.Report? || o.Failed? ==> r.result == JObj(Fields(o))
    ensures r.error == (if o.Failed? then JStr(o.error) else JNull)
  {
    var dict := Fields(o);
    FieldsLookup(o);
    var message := Get(dict, "message");
    var result := if message.Some? && Truthy(message.value) then message.value else JObj(dict);
    var status := ParseStatus(GetOr(dict, "status", JNull));
    Reply(id, status.value, result, GetOr(dict, "error", JNull))
  }

  /** The reply to a failed handler: its whole dict, and its error. */
  lemma FailedReply(id: Value, e: string)
    ensures Respond(id, Failed(e))
         == Reply(id, Error, JObj([Member("status", JStr("error")), Member("error", JStr(e))]), JStr(e))
  {
    assert Fields(Failed(e)) == [Member("status", JStr("error")), Member("error", JStr(e))];
  }

  /** The reply to `test_improvement`: its whole dict, and no error. */
  lemma ImprovedReply(id: Value, v: Value)
    ensures Respond(id, Improved(v))
         == Reply(id, Success, JObj([Member("status", JStr("success")), Member("improved_message", v)]), JNull)
  {
    assert Fields(Improved(v)) == [Member("status", JStr("success")), Member("improved_message", v)];
  }

  /** A handler's effect: the next state and the dict it returns. */
  datatype Step = Step(bridge: State, outcome: Outcome)

  /** `register_improvement_logic` (lines 72-101): install the wrapper closed
      over `data.get('name', 'nodejs_custom')`. */
  function RegisterImprovementLogic(b: State, data: Value): (s: Step)
    ensures s.bridge.nanda == b.nanda && s.bridge.running == b.running
    ensures s.outcome.Failed? <==> !data.JObj?
    ensures s.outcome.Failed? ==> s.bridge == b
    ensures !s.outcome.Failed? ==> s.bridge.logic.Wrapper?
  {
    match data
    case JObj(ms) =>
      var name := GetOr(ms, "name", JStr("nodejs_custom"));
      Step(b.(logic := Wrapper(name)), Done("Registered improvement logic: " + PyStr(name)))
    case _ => Step(b, Failed(AttributeError(TypeName(data), "get")))
  }

  /** `create_nanda_instance` (lines 103-120): install the default logic if
      none is registered, then construct the NANDA instance. */
  function CreateNandaInstance(b: State, env: Env): (s: Step)
    ensures s.bridge.logic != NoLogic
    ensures b.logic != NoLogic ==> s.bridge.logic == b.logic
    ensures s.bridge.running == b.running
    ensures s.bridge.nanda <==> b.nanda || env.nandaFailure.None?
    ensures s.outcome.Failed? <==> env.nandaFailure.Some?
  {
    var withLogic := if b.logic == NoLogic then b.(logic := DefaultLogic) else b;
    match env.nandaFailure
    case Some(e) => Step(withLogic, Failed(e))
    case None => Step(withLogic.(nanda := true), Done("NANDA instance created"))
  }

  const EnrollmentBase := "https://chat.nanda-registry.com/landing.html?agentId="

  /** `start_server_api` (lines 145-202): create the instance if there is none,
      mark the server running, and answer with the enrollment link for
      `config.get('agent_id', 'default')`. The flag is set before the config
      is read, so a config that is not an object still leaves it set. */
  function StartServerApi(b: State, env: Env, config: Value): (s: Step)
    ensures b.logic != NoLogic ==> s.bridge.logic == b.logic
    ensures s.bridge.nanda <==> b.nanda || env.nandaFailure.None?
    ensures s.bridge.running <==> b.running || b.nanda || env.nandaFailure.None?
    ensures s.outcome.ApiStarted? <==> (b.nanda || env.nandaFailure.None?) && config.JObj?
    ensures !s.outcome.ApiStarted? ==> s.outcome.Failed?
  {
    var creation := CreateNandaInstance(b, env);
    if !b.nanda && creation.outcome.Failed? then creation
    else
      var started := (if b.nanda then b else creation.bridge).(running := true);
      match config
      case JObj(ms) =>
        Step(started, ApiStarted(EnrollmentBase + PyStr(GetOr(ms, "agent_id", JStr("default")))))
      case _ => Step(started, Failed(AttributeError(TypeName(config), "get")))
  }

  const NoLogicError := "No improvement logic registered"

  /** `test_improvement` (lines 204-220): the message is read before the logic
      is checked, and the state is never changed. */
  function TestImprovement(b: State, data: Value): (o: Outcome)
    ensures o.Improved? || o.Failed?
    ensures b.logic == NoLogic || !data.JObj? ==> o.Failed?
    ensures b.logic.Wrapper? && data.JObj? ==> o.Improved?
  {
    match data
    case JObj(ms) =>
      var message := GetOr(ms, "message", JStr(""));
      if b.logic == NoLogic then Failed(NoLogicError)
      else
        (match Apply(b.logic, message)
         case Returned(v) => Improved(v)
         case Raised(e) => Failed(e))
    case _ => Failed(AttributeError(TypeName(data), "get"))
  }

  /** `get_status` (lines 222-230). */
  function GetStatus(b: State): Outcome {
    Report(b.nanda, b.running, b.logic != NoLogic)
  }

  /** `stop_server` (lines 232-241). */
  function StopServer(b: State): Step {
    Step(b.(running := false), Done("Server stopped"))
  }

  /** `shutdown` (lines 243-249). */
  function Shutdown(b: State): Step {
    Step(StopServer(b).bridge, Done("Bridge shutdown"))
  }

  datatype Command =
    | RegisterCmd | StartServerCmd | StartServerApiCmd | TestImprovementCmd
    | GetStatusCmd | StopServerCmd | ShutdownCmd | UnknownCmd

  /** The `if`/`elif` chain of `handle_command` (lines 259-280): a command is
      recognised only when it is one of seven exact strings. */
  function Route(command: Value): (c: Command)
    ensures c == UnknownCmd <==> command !in KnownCommands
    ensures c != UnknownCmd ==> command == JStr(CommandName(c))
  {
    if command == JStr("register_improvement_logic") then RegisterCmd
    else if command == JStr("start_server") then StartServerCmd
    else if command == JStr("start_server_api") then StartServerApiCmd
    else if command == JStr("test_improvement") then TestImprovementCmd
    else if command == JStr("get_status") then GetStatusCmd
    else if command == JStr("stop_server") then StopServerCmd
    else if command == JStr("shutdown") then ShutdownCmd
    else UnknownCmd
  }

  /** The exact string each handled command is sent as. */
  function CommandName(c: Command): string
    requires c != UnknownCmd
  {
    match c
    case RegisterCmd => "register_improvement_logic"
    case StartServerCmd => "start_server"
    case StartServerApiCmd => "start_server_api"
    case TestImprovementCmd => "test_improvement"
    case GetStatusCmd => "get_status"
    case StopServerCmd => "stop_server"
    case ShutdownCmd => "shutdown"
  }

  /** Sending a command's name routes to that command, so the seven names are
      distinct. */
  lemma RouteNames(c: Command)
    requires c != UnknownCmd
    ensures Route(JStr(CommandName(c))) == c
  {
  }

  const KnownCommands := {
    JStr("register_improvement_logic"), JStr("start_server"), JStr("start_server_api"),
    JStr("test_improvement"), JStr("get_status"), JStr("stop_server"), JStr("shutdown")
  }

  /** `start_server` is defined without a parameter but dispatched with one, so
      the call raises this TypeError before its body runs (CPython 3.10 and
      later word it this way). */
  const StartServerArityError := "NodeJSBridge.start_server() takes 1 positional argument but 2 were given"

  /** The handler a routed command runs; `start_server` is excluded because its
      call raises. */
  function Dispatch(b: State, env: Env, c: Command, command: Value, data: Value): (s: Step)
    requires c != StartServerCmd
    ensures c == TestImprovementCmd || c == GetStatusCmd || c == UnknownCmd ==> s.bridge == b
    ensures c != RegisterCmd && b.logic != NoLogic ==> s.bridge.logic == b.logic
    ensures Consistent(b) ==> Consistent(s.bridge)
  {
    match c
    case RegisterCmd => RegisterImprovementLogic(b, data)
    case StartServerApiCmd => StartServerApi(b, env, data)
    case TestImprovementCmd => Step(b, TestImprovement(b, data))
    case GetStatusCmd => Step(b, GetStatus(b))
    case StopServerCmd => StopServer(b)
    case ShutdownCmd => Shutdown(b)
    case UnknownCmd => Step(b, Failed("Unknown command: " + PyStr(command)))
  }

  /** What handling one decoded message leads to: carry on with a state and a
      reply, end the process after a reply, or an exception escaping
      `handle_command`. */
  datatype Handled =
    | Continue(bridge: State, out: Output)
    | Exit(bridge: State, out: Output)
    | Escaped(error: string)

  /** `handle_command` (lines 251-296). A message that is not an object fails
      on its first `.get`, and again inside the `except` clause, so the error
      escapes to the line loop. */
  function HandleCommand(b: State, env: Env, message: Value): (h: Handled)
    ensures h.Escaped? <==> !message.JObj?
    ensures !message.JObj? ==> h == Escaped(AttributeError(TypeName(message), "get"))
    ensures h.Exit? <==> message.JObj? && CommandOf(message.members) == JStr("shutdown")
  {
    match message
    case JObj(ms) =>
      var command := CommandOf(ms);
      var data := DataOf(ms);
      var id := IdOf(ms);
      var c := Route(command);
      if c == StartServerCmd then Continue(b, HandlerFailure(id, StartServerArityError, env.traceback))
      else
        var step := Dispatch(b, env, c, command, data);
        if c == ShutdownCmd then
          Exit(step.bridge, ShutdownReply(id, StatusOf(step.outcome), JObj(Fields(step.outcome))))
        else Continue(step.bridge, Respond(id, step.outcome))
    case _ => Escaped(AttributeError(TypeName(message), "get"))
  }

  /** Field accessors for a decoded command object. */
  function IdOf(ms: seq<Member>): Value { GetOr(ms, "id", JNull) }
  function CommandOf(ms: seq<Member>): Value { GetOr(ms, "command", JNull) }
  function DataOf(ms: seq<Member>): Value { GetOr(ms, "data", JObj([])) }

  /** The consistency the commands keep: the server runs only with an
      instance, and an instance exists only with some logic installed. */
  predicate Consistent(b: State) {
    (b.running ==> b.nanda) && (b.nanda ==> b.logic != NoLogic)
  }

  /** Proof helper, not a specification: `handle_command` on an object
      unfolded by the route its command takes. */
  lemma HandleObject(b: State, env: Env, ms: seq<Member>)
    ensures var c := Route(CommandOf(ms));
      HandleCommand(b, env, JObj(ms)) ==
        if c == StartServerCmd then Continue(b, HandlerFailure(IdOf(ms), StartServerArityError, env.traceback))
        else
          var step := Dispatch(b, env, c, CommandOf(ms), DataOf(ms));
          if c == ShutdownCmd then Exit(step.bridge, ShutdownReply(IdOf(ms), StatusOf(step.outcome), JObj(Fields(step.outcome))))
          else Continue(step.bridge, Respond(IdOf(ms), step.outcome))
  {
  }

  /** Proof helper, not a specification: `handle_command` unfolded for an
      object whose command is answered with the standard envelope. */
  lemma HandleRouted(b: State, env: Env, ms: seq<Member>, c: Command)
    requires Route(CommandOf(ms)) == c && c != StartServerCmd && c != ShutdownCmd
    ensures var step := Dispatch(b, env, c, CommandOf(ms), DataOf(ms));
      HandleCommand(b, env, JObj(ms)) == Continue(step.bridge, Respond(IdOf(ms), step.outcome))
  {
  }

  lemma StatusReport(b: State)
    ensures Get(Fields(GetStatus(b)), "bridge_running") == Some(JBool(true))
    ensures Get(Fields(GetStatus(b)), "nanda_initialized") == Some(JBool(b.nanda))
    ensures Get(Fields(GetStatus(b)), "server_running") == Some(JBool(b.running))
    ensures Get(Fields(GetStatus(b)), "improvement_logic_registered") == Some(JBool(b.logic != NoLogic))
  {
    var dict := Fields(GetStatus(b));
    GetUnique(dict, "bridge_running", 1);
    GetUnique(dict, "nanda_initialized", 2);
    GetUnique(dict, "server_running", 3);
    GetUnique(dict, "improvement_logic_registered", 4);
  }

  /** Every object message gets exactly one reply that echoes its `id`
      (`None` when absent); it is the standard envelope for every command but
      `start_server` and `shutdown`, and only `shutdown` ends the process. */
  lemma OneReplyEchoingId(b: State, env: Env, ms: seq<Member>)
    ensures var h := HandleCommand(b, env, JObj(ms));
      && !h.Escaped?
      && (h.Exit? <==> CommandOf(ms) == JStr("shutdown"))
      && h.out.id == IdOf(ms)
      && (h.out.Reply? <==> CommandOf(ms) != JStr("shutdown") && CommandOf(ms) != JStr("start_server"))
  {
    var c := Route(CommandOf(ms));
    if c != StartServerCmd && c != ShutdownCmd {
      HandleRouted(b, env, ms, c);
    }
  }

  /** `start_server` always fails the same way and changes nothing. */
  lemma StartServerAlwaysFails(b: State, env: Env, ms: seq<Member>)
    requires CommandOf(ms) == JStr("start_server")
    ensures HandleCommand(b, env, JObj(ms)) == Continue(b, HandlerFailure(IdOf(ms), StartServerArityError, env.traceback))
  {
  }

  /** An unrecognised command is rejected by name and changes nothing. */
  lemma UnknownCommandRejected(b: State, env: Env, ms: seq<Member>)
    requires CommandOf(ms) !in KnownCommands
    ensures var e := "Unknown command: " + PyStr(CommandOf(ms));
      HandleCommand(b, env, JObj(ms))
      == Continue(b, Reply(IdOf(ms), Error, JObj([Member("status", JStr("error")), Member("error", JStr(e))]), JStr(e)))
  {
    var e := "Unknown command: " + PyStr(CommandOf(ms));
    assert Route(CommandOf(ms)) == UnknownCmd;
    HandleRouted(b, env, ms, UnknownCmd);
    assert Dispatch(b, env, UnknownCmd, CommandOf(ms), DataOf(ms)) == Step(b, Failed(e));
    FailedReply(IdOf(ms), e);
  }

  /** `register_improvement_logic` installs the wrapper for the given name, or
      `'nodejs_custom'`, leaves the two flags alone, and answers with the name;
      data that is not an object is rejected without a change. */
  lemma RegisterInstallsWrapper(b: State, env: Env, ms: seq<Member>)
    requires CommandOf(ms) == JStr("register_improvement_logic")
    ensures var h := HandleCommand(b, env, JObj(ms));
      match DataOf(ms)
      case JObj(ds) =>
        var name := GetOr(ds, "name", JStr("nodejs_custom"));
        && h.Continue?
        && h.bridge == State(Wrapper(name), b.nanda, b.running)
        && h.out == Reply(IdOf(ms), Success, JStr("Registered improvement logic: " + PyStr(name)), JNull)
        && (!HasKey(ds, "name") ==> h.bridge.logic == Wrapper(JStr("nodejs_custom")))
      case other =>
        && h.Continue? && h.bridge == b
        && h.out.Reply? && h.out.status == Error
        && h.out.error == JStr(AttributeError(TypeName(other), "get"))
  {
  }

  /** `test_improvement` never changes the state. Data that is not an object
      is rejected with its `AttributeError`; with no logic registered it
      fails; otherwise it answers with the logic applied to the message, `''`
      by default, or with the error the logic raised. */
  lemma TestImprovementApplies(b: State, env: Env, ms: seq<Member>)
    requires CommandOf(ms) == JStr("test_improvement")
    ensures var h := HandleCommand(b, env, JObj(ms));
      && h.Continue? && h.bridge == b
      && (!DataOf(ms).JObj? ==>
            var e := AttributeError(TypeName(DataOf(ms)), "get");
            h.out == Reply(IdOf(ms), Error, JObj([Member("status", JStr("error")), Member("error", JStr(e))]), JStr(e)))
      && (DataOf(ms).JObj? ==>
            var message := GetOr(DataOf(ms).members, "message", JStr(""));
            && (b.logic == NoLogic ==> h.out == Reply(IdOf(ms), Error,
                  JObj([Member("status", JStr("error")), Member("error", JStr(NoLogicError))]), JStr(NoLogicError)))
            && (b.logic != NoLogic && Apply(b.logic, message).Returned? ==>
                  h.out == Reply(IdOf(ms), Success,
                    JObj([Member("status", JStr("success")), Member("improved_message", Apply(b.logic, message).value)]), JNull))
            && (b.logic != NoLogic && Apply(b.logic, message).Raised? ==>
                  h.out == Reply(IdOf(ms), Error,
                    JObj([Member("status", JStr("error")), Member("error", JStr(Apply(b.logic, message).error))]),
                    JStr(Apply(b.logic, message).error))))
  {
    HandleRouted(b, env, ms, TestImprovementCmd);
    var o := TestImprovement(b, DataOf(ms));
    assert Dispatch(b, env, TestImprovementCmd, CommandOf(ms), DataOf(ms)) == Step(b, o);
    if !DataOf(ms).JObj? {
      FailedReply(IdOf(ms), AttributeError(TypeName(DataOf(ms)), "get"));
    } else {
      var message := GetOr(DataOf(ms).members, "message", JStr(""));
      if b.logic == NoLogic {
        FailedReply(IdOf(ms), NoLogicError);
      } else if Apply(b.logic, message).Returned? {
        ImprovedReply(IdOf(ms), Apply(b.logic, message).value);
      } else {
        FailedReply(IdOf(ms), Apply(b.logic, message).error);
      }
    }
  }

  /** After `start_server_api` succeeds the instance exists and the server
      runs; the default logic is installed only where none was registered;
      the link names the agent, `'default'` when absent; the reply carries the
      message only, so the link is not sent back. */
  lemma StartServerApiStarts(b: State, env: Env, ms: seq<Member>)
    requires CommandOf(ms) == JStr("start_server_api")
    requires Consistent(b)
    requires b.nanda || env.nandaFailure.None?
    requires DataOf(ms).JObj?
    ensures var step := StartServerApi(b, env, DataOf(ms));
      && step.bridge.nanda && step.bridge.running
      && step.bridge.logic == (if b.logic == NoLogic then DefaultLogic else b.logic)
      && step.outcome == ApiStarted(EnrollmentBase + PyStr(GetOr(DataOf(ms).members, "agent_id", JStr("default"))))
      && HandleCommand(b, env, JObj(ms)) == Continue(step.bridge, Reply(IdOf(ms), Success, JStr(ApiStartedMessage), JNull))
  {
    HandleRouted(b, env, ms, StartServerApiCmd);
    assert Dispatch(b, env, StartServerApiCmd, CommandOf(ms), DataOf(ms)) == StartServerApi(b, env, DataOf(ms));
  }

  /** When the NANDA constructor raises, `start_server_api` reports its error,
      the server does not run, and the default logic stays installed. */
  lemma StartServerApiConstructorFails(b: State, env: Env, ms: seq<Member>)
    requires CommandOf(ms) == JStr("start_server_api")
    requires !b.nanda && env.nandaFailure.Some?
    ensures var h := HandleCommand(b, env, JObj(ms));
      && h.Continue?
      && h.bridge == State(if b.logic == NoLogic then DefaultLogic else b.logic, false, b.running)
      && h.out.Reply? && h.out.error == JStr(env.nandaFailure.value)
  {
    HandleRouted(b, env, ms, StartServerApiCmd);
    assert Dispatch(b, env, StartServerApiCmd, CommandOf(ms), DataOf(ms)) == StartServerApi(b, env, DataOf(ms));
  }

  /** `get_status` reports the bridge running and mirrors the three state
      flags, changing nothing. */
  lemma StatusMirrorsState(b: State, env: Env, ms: seq<Member>)
    requires CommandOf(ms) == JStr("get_status")
    ensures var h := HandleCommand(b, env, JObj(ms));
      && h == Continue(b, Reply(IdOf(ms), Success, JObj(Fields(GetStatus(b))), JNull))
      && Get(Fields(GetStatus(b)), "bridge_running") == Some(JBool(true))
      && Get(Fields(GetStatus(b)), "nanda_initialized") == Some(JBool(b.nanda))
      && Get(Fields(GetStatus(b)), "server_running") == Some(JBool(b.running))
      && Get(Fields(GetStatus(b)), "improvement_logic_registered") == Some(JBool(b.logic != NoLogic))
  {
    HandleRouted(b, env, ms, GetStatusCmd);
    StatusReport(b);
  }

  /** `stop_server` clears only `running`, and a second stop changes nothing
      and answers alike. */
  lemma StopServerIdempotent(b: State, env: Env, ms: seq<Member>)
    requires CommandOf(ms) == JStr("stop_server")
    ensures var h := HandleCommand(b, env, JObj(ms));
      && h == Continue(State(b.logic, b.nanda, false), Reply(IdOf(ms), Success, JStr("Server stopped"), JNull))
      && HandleCommand(h.bridge, env, JObj(ms)) == Continue(h.bridge, h.out)
  {
    HandleRouted(b, env, ms, StopServerCmd);
    HandleRouted(b.(running := false), env, ms, StopServerCmd);
  }

  /** `shutdown` stops the server as `stop_server` does, answers once with the
      whole dict and no `error` key, and ends the process. */
  lemma ShutdownStops(b: State, env: Env, ms: seq<Member>)
    requires CommandOf(ms) == JStr("shutdown")
    ensures HandleCommand(b, env, JObj(ms))
         == Exit(StopServer(b).bridge, ShutdownReply(IdOf(ms), Success,
              JObj([Member("status", JStr("success")), Member("message", JStr("Bridge shutdown"))])))
  {
    HandleObject(b, env, ms);
  }

  /** No command breaks the consistency of the state. */
  lemma CommandsKeepConsistency(b: State, env: Env, message: Value)
    requires Consistent(b)
    ensures var h := HandleCommand(b, env, message);
      !h.Escaped? ==> Consistent(h.bridge)
  {
    if message.JObj? {
      var ms := message.members;
      var c := Route(CommandOf(ms));
      if c != StartServerCmd {
        var step := Dispatch(b, env, c, CommandOf(ms), DataOf(ms));
      }
    }
  }
}

=== FILE: improvement.dfy ===
/**
  The improvement logic the bridge registers (python/bridge_wrapper.py:72-101)
  or installs by default (python/bridge_wrapper.py:107-111), and the three text
  transforms the registered wrapper chooses between by its name.
 */
module Improvement {
  import opened PyText
  import opened Json

  /** What `improvement_logic` holds: nothing, the wrapper closed over the
      registered name, or the default strip-and-capitalize function. */
  datatype Logic = NoLogic | Wrapper(name: Value) | DefaultLogic

  datatype Style = Pirate | Professional | Plain

  /** The wrapper's choice: `'pirate'` in the lower-cased name is looked for first,
      then `'professional'`. */
  function StyleOf(name: string): Style {
    var lowered := Lower(name);
    if Contains(lowered, "pirate") then Pirate
    else if Contains(lowered, "professional") then Professional
    else Plain
  }

  /** `text.replace('hello', 'ahoy').replace('Hi', 'Ahoy')`: no `hello` and
      no `Hi` is left, not even one the replacements could have formed. */
  function PirateText(text: string): (r: string)
    ensures !Contains(r, "hello") && !Contains(r, "Hi")
  {
    var t := Replace(text, "hello", "ahoy");
    SafeInsertions();
    ReplaceAvoids(text, "hello", "ahoy", "hello");
    ReplaceAvoids(t, "Hi", "Ahoy", "Hi");
    ReplaceAvoids(t, "Hi", "Ahoy", "hello");
    Replace(t, "Hi", "Ahoy")
  }

  const Greeting := "Dear colleague, "
  const SignOff := ". Best regards."

  /** The text between the fixed greeting and sign-off, if `r` has that frame. */
  function Unwrap(r: string): Option<string> {
    if |r| >= |Greeting| + |SignOff| && r[..|Greeting|] == Greeting && r[|r| - |SignOff|..] == SignOff
    then Some(r[|Greeting|..|r| - |SignOff|])
    else None
  }

  /** `f"Dear colleague, {text}. Best regards."`, given the text's `str()`. */
  function ProfessionalText(text: string): (r: string)
    ensures Unwrap(r) == Some(text)
  {
    var r := Greeting + text + SignOff;
    assert r[..|Greeting|] == Greeting;
    assert r[|r| - |SignOff|..] == SignOff;
    assert r[|Greeting|..|r| - |SignOff|] == text;
    r
  }

  /** `text.strip().capitalize()`: the result has no whitespace at either end,
      is capitalized, and equals the stripped text up to case. */
  function PlainText(text: string): (r: string)
    ensures Strip(r) == r && IsCapitalized(r)
    ensures Lower(r) == Lower(Strip(text))
  {
    var s := Strip(text);
    CapitalizeFacts(s);
    CapitalizeStripped(s);
    Capitalize(s)
  }

  /** The outcome of calling the logic: a value, or an exception's `str()`. */
  datatype Applied = Returned(value: Value) | Raised(error: string)

  /** Calling `improvement_logic(text)`. The wrapper swallows every exception
      and then returns `text` unchanged: a non-string name fails on `.lower()`,
      a non-string text fails on `.replace` or `.strip`. The default logic has
      no such guard, so a non-string text raises out of it. */
  function Apply(logic: Logic, text: Value): (r: Applied)
    requires logic != NoLogic
    ensures logic.Wrapper? ==> r.Returned?
    ensures logic == DefaultLogic ==> (r.Raised? <==> !text.JStr?)
  {
    match logic
    case Wrapper(JStr(name)) =>
      (match StyleOf(name)
       case Pirate => if text.JStr? then Returned(JStr(PirateText(text.s))) else Returned(text)
       case Professional => Returned(JStr(ProfessionalText(PyStr(text))))
       case Plain => if text.JStr? then Returned(JStr(PlainText(text.s))) else Returned(text))
    case Wrapper(_) => Returned(text)
    case DefaultLogic =>
      if text.JStr? then Returned(JStr(PlainText(text.s)))
      else Raised(AttributeError(TypeName(text), "strip"))
  }

  lemma LowerTwice(s: string)
    ensures Lower(Lower(s)) == Lower(s)
  {
  }

  /** The choice ignores case, and a name naming both styles gets the pirate
      one. */
  lemma StyleChoice(name: string)
    ensures StyleOf(name) == StyleOf(Lower(name))
    ensures Contains(Lower(name), "pirate") ==> StyleOf(name) == Pirate
    ensures StyleOf(name) == Professional <==> !Contains(Lower(name), "pirate") && Contains(Lower(name), "professional")
  {
    LowerTwice(name);
  }

  /** Neither replacement text can complete a `hello` or a `Hi` around it. */
  lemma SafeInsertions()
    ensures SafeFor("ahoy", "hello")
    ensures SafeFor("Ahoy", "Hi")
    ensures SafeFor("Ahoy", "hello")
  {
    forall k | 0 <= k < 4
      ensures !Overlap("ahoy"[k..], "hello") && !Overlap("Ahoy"[k..], "hello")
      ensures !Overlap("Ahoy"[k..], "Hi")
    {
      assert "ahoy"[k..][0] != 'h' || "ahoy"[k..][1] != 'e';
      assert "Ahoy"[k..][0] != 'h' || "Ahoy"[k..][1] != 'e';
      assert "Ahoy"[k..][0] != 'H';
    }
  }

  /** A text is left unchanged by the pirate transform exactly when it holds
      neither `hello` nor `Hi`; so applying it twice is applying it once. */
  lemma PirateFixedPoints(text: string)
    ensures PirateText(text) == text <==> !Contains(text, "hello") && !Contains(text, "Hi")
    ensures PirateText(PirateText(text)) == PirateText(text)
  {
    if !Contains(text, "hello") && !Contains(text, "Hi") {
      ReplaceAbsent(text, "hello", "ahoy");
      ReplaceAbsent(text, "Hi", "Ahoy");
    }
    var p := PirateText(text);
    ReplaceAbsent(p, "hello", "ahoy");
    ReplaceAbsent(p, "Hi", "Ahoy");
  }

  /** The first `hello` becomes `ahoy`, with the text around it kept, when
      nothing else needs replacing. */
  lemma PirateReplacesHello(a: string, b: string)
    requires !Contains(a + "hell", "hello") && !Contains(b, "hello")
    requires !Contains(a + "ahoy" + b, "Hi")
    ensures PirateText(a + "hello" + b) == a + "ahoy" + b
  {
    assert "hello"[..4] == "hell";
    ReplaceFirst(a, b, "hello", "ahoy");
    ReplaceAbsent(b, "hello", "ahoy");
    ReplaceAbsent(a + "ahoy" + b, "Hi", "Ahoy");
  }

  /** The first `Hi` becomes `Ahoy`, with the text around it kept, when
      nothing else needs replacing. */
  lemma PirateReplacesHi(a: string, b: string)
    requires !Contains(a + "Hi" + b, "hello")
    requires !Contains(a + "H", "Hi") && !Contains(b, "Hi")
    ensures PirateText(a + "Hi" + b) == a + "Ahoy" + b
  {
    assert "Hi"[..1] == "H";
    ReplaceAbsent(a + "Hi" + b, "hello", "ahoy");
    ReplaceFirst(a, b, "Hi", "Ahoy");
    ReplaceAbsent(b, "Hi", "Ahoy");
  }

  /** A text is left unchanged by strip-and-capitalize exactly when it has no
      whitespace at either end and is already capitalized; so applying it twice
      is applying it once. */
  lemma PlainFixedPoints(text: string)
    ensures PlainText(text) == text <==> Strip(text) == text && IsCapitalized(text)
    ensures PlainText(PlainText(text)) == PlainText(text)
  {
    CapitalizeFacts(text);
    CapitalizeFacts(PlainText(text));
  }

  /** What a registered wrapper's result means, by the style of its name: the
      professional frame gives back `str(text)`; the pirate result holds no
      `hello` and no `Hi` and equals the text exactly when the text held
      neither; the plain result is the stripped text, capitalized; and a text that
      is not a string comes back unchanged from the other two styles. */
  lemma WrapperResult(name: string, text: Value)
    ensures var r := Apply(Wrapper(JStr(name)), text);
      && (StyleOf(name) == Professional ==> r.value.JStr? && Unwrap(r.value.s) == Some(PyStr(text)))
      && (StyleOf(name) == Pirate && text.JStr? ==>
            && r.value == JStr(PirateText(text.s))
            && !Contains(r.value.s, "hello") && !Contains(r.value.s, "Hi")
            && (r.value == text <==> !Contains(text.s, "hello") && !Contains(text.s, "Hi")))
      && (StyleOf(name) == Plain && text.JStr? ==>
            && r.value.JStr? && Strip(r.value.s) == r.value.s && IsCapitalized(r.value.s)
            && Lower(r.value.s) == Lower(Strip(text.s)))
      && (StyleOf(name) != Professional && !text.JStr? ==> r.value == text)
  {
    if StyleOf(name) == Pirate && text.JStr? {
      PirateFixedPoints(text.s);
    }
  }

  /** On a string, the default logic agrees with a wrapper whose name selects
      the plain style; they differ only in what a non-string text does. */
  lemma LogicResult(name: Value, text: Value)
    ensures name.JStr? && StyleOf(name.s) == Plain && text.JStr? ==>
      Apply(DefaultLogic, text) == Apply(Wrapper(name), text)
    ensures !text.JStr? ==> Apply(DefaultLogic, text).Raised? && Apply(Wrapper(name), text).Returned?
  {
  }
}

=== FILE: json.dfy ===
/**
  The values `json.loads` hands the bridge, and the Python behaviour the bridge
  applies to them: `dict.get`, truthiness, `str()` (as used by f-strings) and
  the text of the `AttributeError` raised when a non-dict value is asked for
  `.get`.
 */
module Json {
  import opened PyText

  datatype Option<T> = None | Some(value: T)

  /** A decoded JSON value. Objects keep their members in document order. */
  datatype Value =
    | JNull
    | JBool(b: bool)
    | JInt(i: int)
    | JStr(s: string)
    | JArr(items: seq<Value>)
    | JObj(members: seq<Member>)

  datatype Member = Member(key: string, value: Value)

  predicate HasKey(ms: seq<Member>, k: string) {
    exists i :: 0 <= i < |ms| && ms[i].key == k
  }

  /** `d.get(k)` on the dict `json.loads` builds from `ms`: a repeated key keeps
      its last value. */
  function Get(ms: seq<Member>, k: string): (r: Option<Value>)
    ensures r.Some? <==> HasKey(ms, k)
    ensures r.Some? ==> exists i :: 0 <= i < |ms| && ms[i] == Member(k, r.value)
                                    && forall j :: i < j < |ms| ==> ms[j].key != k
  {
    if ms == [] then None
    else if ms[|ms| - 1].key == k then Some(ms[|ms| - 1].value)
    else
      var r := Get(ms[..|ms| - 1], k);
      assert forall i :: 0 <= i < |ms| - 1 ==> ms[..|ms| - 1][i] == ms[i];
      r
  }

  /** A key held by exactly one member gets that member's value. */
  lemma GetUnique(ms: seq<Member>, k: string, i: int)
    requires 0 <= i < |ms| && ms[i].key == k
    requires forall j :: 0 <= j < |ms| && j != i ==> ms[j].key != k
    ensures Get(ms, k) == Some(ms[i].value)
  {
  }

  /** No two members share a key, as in a Python dict. */
  predicate UniqueKeys(ms: seq<Member>) {
    forall i, j :: 0 <= i < j < |ms| ==> ms[i].key != ms[j].key
  }

  /** A key held by the last member is held by the whole sequence, and
      otherwise only if the prefix holds it. */
  lemma HasKeyLast(ms: seq<Member>, k: string)
    requires ms != []
    ensures HasKey(ms, k) <==> HasKey(ms[..|ms| - 1], k) || ms[|ms| - 1].key == k
  {
    var p := ms[..|ms| - 1];
    if HasKey(p, k) {
      var i :| 0 <= i < |p| && p[i].key == k;
      assert ms[i].key == k;
    }
    if HasKey(ms, k) && ms[|ms| - 1].key != k {
      var i :| 0 <= i < |ms| && ms[i].key == k;
      assert p[i].key == k;
    }
  }

  /** `d[m.key] = m.value`: an existing key keeps its place and takes the new
      value, a new key goes last. */
  function Insert(d: seq<Member>, m: Member): seq<Member> {
    if HasKey(d, m.key) then seq(|d|, i requires 0 <= i < |d| => if d[i].key == m.key then m else d[i])
    else d + [m]
  }

  /** The keys of a member list, in order. */
  function Keys(d: seq<Member>): seq<string> {
    seq(|d|, i requires 0 <= i < |d| => d[i].key)
  }

  /** Inserting keeps the keys distinct and in place, adds exactly the new key
      (last, when it is new), and makes `get` return the new value for it and
      the old value for every other key. */
  lemma InsertFacts(d: seq<Member>, m: Member, k: string)
    requires UniqueKeys(d)
    ensures UniqueKeys(Insert(d, m))
    ensures Keys(Insert(d, m)) == if HasKey(d, m.key) then Keys(d) else Keys(d) + [m.key]
    ensures HasKey(Insert(d, m), k) <==> HasKey(d, k) || k == m.key
    ensures Get(Insert(d, m), k) == if k == m.key then Some(m.value) else Get(d, k)
  {
    if HasKey(d, m.key) {
      InsertExisting(d, m, k);
    } else {
      var e := Insert(d, m);
      assert e[..|e| - 1] == d;
      HasKeyLast(e, k);
    }
  }

  lemma InsertExisting(d: seq<Member>, m: Member, k: string)
    requires UniqueKeys(d) && HasKey(d, m.key)
    ensures UniqueKeys(Insert(d, m))
    ensures Keys(Insert(d, m)) == Keys(d)
    ensures HasKey(Insert(d, m), k) <==> HasKey(d, k)
    ensures Get(Insert(d, m), k) == if k == m.key then Some(m.value) else Get(d, k)
  {
    var e := Insert(d, m);
    assert forall j :: 0 <= j < |d| ==> e[j].key == d[j].key;
    var i :| 0 <= i < |d| && d[i].key == m.key;
    if k == m.key {
      GetUnique(e, k, i);
    } else if HasKey(d, k) {
      var j :| 0 <= j < |d| && d[j].key == k;
      GetUnique(d, k, j);
      GetUnique(e, k, j);
    } else {
      assert !HasKey(e, k);
    }
  }

  /** The dict `json.loads` builds from an object's members, in order. */
  function Collapse(ms: seq<Member>): (d: seq<Member>)
    ensures UniqueKeys(d)
  {
    if ms == [] then []
    else
      var p := Collapse(ms[..|ms| - 1]);
      InsertFacts(p, ms[|ms| - 1], "");
      Insert(p, ms[|ms| - 1])
  }

  /** Collapsing repeated keys changes nothing `get` can see. */
  lemma {:induction false} CollapseGet(ms: seq<Member>, k: string)
    ensures Get(Collapse(ms), k) == Get(ms, k)
    ensures HasKey(Collapse(ms), k) <==> HasKey(ms, k)
  {
    if ms != [] {
      var p := ms[..|ms| - 1];
      CollapseGet(p, k);
      InsertFacts(Collapse(p), ms[|ms| - 1], k);
      HasKeyLast(ms, k);
    }
  }

  /** The distinct keys of a member list, in the order they first appear. */
  function FirstKeys(ms: seq<Member>): seq<string> {
    if ms == [] then []
    else
      var p := FirstKeys(ms[..|ms| - 1]);
      if ms[|ms| - 1].key in p then p else p + [ms[|ms| - 1].key]
  }

  /** The dict built from a member list holds each key once, at the place
      where the key first appeared. */
  lemma {:induction false} CollapseKeys(ms: seq<Member>)
    ensures Keys(Collapse(ms)) == FirstKeys(ms)
  {
    if ms != [] {
      var p := ms[..|ms| - 1];
      var m := ms[|ms| - 1];
      var d := Collapse(p);
      CollapseKeys(p);
      CollapseGet(p, m.key);
      InsertFacts(d, m, m.key);
      assert HasKey(d, m.key) <==> m.key in Keys(d) by {
        if HasKey(d, m.key) {
          var i :| 0 <= i < |d| && d[i].key == m.key;
          assert Keys(d)[i] == m.key;
        }
        if m.key in Keys(d) {
          var i :| 0 <= i < |d| && Keys(d)[i] == m.key;
          assert d[i].key == m.key;
        }
      }
    }
  }

  /** Every member of the built dict comes from the member list. */
  lemma {:induction false} CollapseFrom(ms: seq<Member>)
    ensures forall m :: m in Collapse(ms) ==> m in ms
  {
    if ms != [] {
      var p := ms[..|ms| - 1];
      CollapseFrom(p);
      forall m | m in Collapse(ms)
        ensures m in ms
      {
        if m != ms[|ms| - 1] {
          assert m in Collapse(p);
          var i :| 0 <= i < |p| && p[i] == m;
          assert ms[i] == m;
        }
      }
    }
  }

  /** Members with distinct keys are already a dict. */
  lemma {:induction false} CollapseUnique(ms: seq<Member>)
    requires UniqueKeys(ms)
    ensures Collapse(ms) == ms
  {
    if ms != [] {
      var p := ms[..|ms| - 1];
      var m := ms[|ms| - 1];
      assert UniqueKeys(p) by {
        forall a, b | 0 <= a < b < |p|
          ensures p[a].key != p[b].key
        {
          assert p[a] == ms[a] && p[b] == ms[b];
        }
      }
      CollapseUnique(p);
      assert !HasKey(p, m.key) by {
        forall a | 0 <= a < |p|
          ensures p[a].key != m.key
        {
          assert p[a] == ms[a];
        }
      }
      assert Collapse(ms) == Insert(p, m) == p + [m];
      assert p + [m] == ms;
    }
  }

  /** What `json.loads` returns for a parsed document: every object becomes a
      dict, so a repeated key keeps its first place and its last value. */
  function Load(j: Value): (r: Value)
    ensures TypeName(r) == TypeName(j)
    ensures r.JObj? ==> UniqueKeys(r.members)
  {
    match j
    case JArr(xs) => JArr(seq(|xs|, i requires 0 <= i < |xs| => Load(xs[i])))
    case JObj(ms) => JObj(Collapse(seq(|ms|, i requires 0 <= i < |ms| => Member(ms[i].key, Load(ms[i].value)))))
    case _ => j
  }

  /** Every object inside `v`, at any depth, is a dict: no two of its members
      share a key. */
  predicate Dicts(v: Value) {
    match v
    case JArr(xs) => forall i :: 0 <= i < |xs| ==> Dicts(xs[i])
    case JObj(ms) => UniqueKeys(ms) && forall i :: 0 <= i < |ms| ==> Dicts(ms[i].value)
    case _ => true
  }

  /** `json.loads` builds dicts at every depth. */
  lemma {:induction false} LoadDicts(j: Value)
    ensures Dicts(Load(j))
  {
    match j
    case JArr(xs) =>
      forall i | 0 <= i < |xs|
        ensures Dicts(Load(j).items[i])
      {
        LoadDicts(xs[i]);
      }
    case JObj(ms) =>
      var loaded := seq(|ms|, i requires 0 <= i < |ms| => Member(ms[i].key, Load(ms[i].value)));
      var d := Collapse(loaded);
      assert Load(j) == JObj(d);
      CollapseFrom(loaded);
      forall i | 0 <= i < |d|
        ensures Dicts(d[i].value)
      {
        assert d[i] in loaded;
        var n :| 0 <= n < |loaded| && loaded[n] == d[i];
        LoadDicts(ms[n].value);
      }
    case _ =>
  }

  /** `get` on a loaded object finds the loaded value of the last member with
      that key. */
  lemma LoadGet(ms: seq<Member>, k: string)
    ensures Get(Load(JObj(ms)).members, k) == match Get(ms, k) case None => None case Some(v) => Some(Load(v))
  {
    var loaded := seq(|ms|, i requires 0 <= i < |ms| => Member(ms[i].key, Load(ms[i].value)));
    CollapseGet(loaded, k);
    GetLoaded(ms, loaded, k);
  }

  lemma {:induction false} GetLoaded(ms: seq<Member>, loaded: seq<Member>, k: string)
    requires |loaded| == |ms|
    requires forall i :: 0 <= i < |ms| ==> loaded[i] == Member(ms[i].key, Load(ms[i].value))
    ensures Get(loaded, k) == match Get(ms, k) case None => None case Some(v) => Some(Load(v))
  {
    if ms != [] {
      GetLoaded(ms[..|ms| - 1], loaded[..|loaded| - 1], k);
    }
  }

  /** `d.get(k, default)`. */
  function GetOr(ms: seq<Member>, k: string, default: Value): Value {
    match Get(ms, k)
    case Some(v) => v
    case None => default
  }

  /** `get` with a default on a loaded object is the loaded `get` on the
      parsed document. */
  lemma LoadGetOr(ms: seq<Member>, k: string, default: Value)
    ensures GetOr(Load(JObj(ms)).members, k, Load(default)) == Load(GetOr(ms, k, default))
  {
    LoadGet(ms, k);
  }

  /** Python truthiness of a decoded value. */
  predicate Truthy(j: Value) {
    match j
    case JNull => false
    case JBool(b) => b
    case JInt(n) => n != 0
    case JStr(s) => s != []
    case JArr(xs) => xs != []
    case JObj(ms) => ms != []
  }

  /** The Python type name of a decoded value. */
  function TypeName(j: Value): string {
    match j
    case JNull => "NoneType"
    case JBool(_) => "bool"
    case JInt(_) => "int"
    case JStr(_) => "str"
    case JArr(_) => "list"
    case JObj(_) => "dict"
  }

  /** `str(e)` for the AttributeError raised by `value.attr` on a type that has
      no such attribute. */
  function AttributeError(typeName: string, attr: string): string {
    "'" + typeName + "' object has no attribute '" + attr + "'"
  }

  /** A lower-case hexadecimal digit, as `\x` escapes write it. */
  function HexDigit(d: int): char
    requires 0 <= d < 16
  {
    if d < 10 then ('0' as int + d) as char else ('a' as int + d - 10) as char
  }

  predicate IsHexDigit(c: char) {
    '0' <= c <= '9' || 'a' <= c <= 'f'
  }

  function HexValue(c: char): (d: int)
    requires IsHexDigit(c)
    ensures 0 <= d < 16 && HexDigit(d) == c
  {
    if c <= '9' then c as int - '0' as int else c as int - 'a' as int + 10
  }

  /** One character of a string literal as `repr` writes it inside `quote`. */
  function EscapeChar(c: char, quote: char): string {
    if c == '\\' then "\\\\"
    else if c == quote then ['\\', quote]
    else if c == '\t' then "\\t"
    else if c == '\n' then "\\n"
    else if c == '\r' then "\\r"
    else if c as int < 32 || c as int == 127 then "\\x" + [HexDigit(c as int / 16), HexDigit(c as int % 16)]
    else [c]
  }

  function Escape(s: string, quote: char): string {
    if s == [] then [] else EscapeChar(s[0], quote) + Escape(s[1..], quote)
  }

  function Prepend(c: char, o: Option<string>): Option<string> {
    match o
    case Some(u) => Some([c] + u)
    case None => None
  }

  /** Reading a string literal's body back, the inverse of `Escape`: `None`
      when a backslash starts no escape `repr` writes. */
  function Unescape(e: string, quote: char): Option<string>
    decreases |e|
  {
    if e == [] then Some([])
    else if e[0] != '\\' then Prepend(e[0], Unescape(e[1..], quote))
    else if |e| < 2 then None
    else if e[1] == '\\' || e[1] == quote then Prepend(e[1], Unescape(e[2..], quote))
    else if e[1] == 't' then Prepend('\t', Unescape(e[2..], quote))
    else if e[1] == 'n' then Prepend('\n', Unescape(e[2..], quote))
    else if e[1] == 'r' then Prepend('\r', Unescape(e[2..], quote))
    else if e[1] == 'x' && |e| >= 4 && IsHexDigit(e[2]) && IsHexDigit(e[3]) then
      Prepend((16 * HexValue(e[2]) + HexValue(e[3])) as char, Unescape(e[4..], quote))
    else None
  }

  /** One escaped character is read back as itself. */
  lemma UnescapeChar(c: char, rest: string, quote: char)
    requires quote == '\'' || quote == '"'
    ensures Unescape(EscapeChar(c, quote) + rest, quote) == Prepend(c, Unescape(rest, quote))
  {
    var e := EscapeChar(c, quote) + rest;
    if c == '\\' || c == quote || c == '\t' || c == '\n' || c == '\r' {
      assert e[2..] == rest;
      assert Unescape(e, quote) == Prepend(c, Unescape(e[2..], quote));
    } else if c as int < 32 || c as int == 127 {
      UnescapeHex(c, rest, quote);
    } else {
      assert e[1..] == rest;
      assert Unescape(e, quote) == Prepend(c, Unescape(e[1..], quote));
    }
  }

  lemma UnescapeHex(c: char, rest: string, quote: char)
    requires quote == '\'' || quote == '"'
    requires c as int < 32 || c as int == 127
    requires c != '\t' && c != '\n' && c != '\r'
    ensures Unescape(EscapeChar(c, quote) + rest, quote) == Prepend(c, Unescape(rest, quote))
  {
    var hi, lo := c as int / 16, c as int % 16;
    var e := "\\x" + [HexDigit(hi), HexDigit(lo)] + rest;
    assert EscapeChar(c, quote) + rest == e;
    assert e[1] == 'x' && e[2] == HexDigit(hi) && e[3] == HexDigit(lo);
    assert HexValue(e[2]) == hi && HexValue(e[3]) == lo;
    assert e[4..] == rest;
    assert Unescape(e, quote) == Prepend((16 * hi + lo) as char, Unescape(rest, quote));
  }

  /** `Unescape` inverts `Escape`. */
  lemma {:induction false} UnescapeEscape(s: string, quote: char)
    requires quote == '\'' || quote == '"'
    ensures Unescape(Escape(s, quote), quote) == Some(s)
    decreases |s|
  {
    if s != [] {
      UnescapeChar(s[0], Escape(s[1..], quote), quote);
      UnescapeEscape(s[1..], quote);
      assert [s[0]] + s[1..] == s;
    }
  }

  /** `repr` of a string: single quotes, unless the text holds a single quote
      and no double quote; the text between the quotes reads back as `s`. */
  function ReprString(s: string): (r: string)
    ensures |r| >= 2 && r[0] == r[|r| - 1] && r[0] in "'\""
    ensures r[0] == '"' <==> '\'' in s && '"' !in s
    ensures Unescape(r[1..|r| - 1], r[0]) == Some(s)
  {
    var quote := if '\'' in s && '"' !in s then '"' else '\'';
    var r := [quote] + Escape(s, quote) + [quote];
    UnescapeEscape(s, quote);
    assert r[1..|r| - 1] == Escape(s, quote);
    r
  }

  /** `repr` of a decoded value, as `str()` of a list or dict shows its items.
      Its first character tells which kind of value it shows. */
  function Repr(j: Value): (r: string)
    ensures r != []
    ensures r[0] == '[' <==> j.JArr?
    ensures r[0] == '{' <==> j.JObj?
    ensures r[0] == '\'' || r[0] == '"' <==> j.JStr?
    ensures IsDigit(r[0]) || r[0] == '-' <==> j.JInt?
    ensures r[0] == 'N' <==> j.JNull?
    ensures j.JStr? ==> |r| >= 2 && Unescape(r[1..|r| - 1], r[0]) == Some(j.s)
    ensures j.JInt? && j.i >= 0 ==>
      (forall k :: 0 <= k < |r| ==> IsDigit(r[k])) && DecimalValue(r) == j.i
    ensures j.JInt? && j.i < 0 ==>
      && r[0] == '-' && |r| >= 2
      && (forall k :: 0 <= k < |r[1..]| ==> IsDigit(r[1..][k])) && DecimalValue(r[1..]) == -j.i
  {
    match j
    case JNull => "None"
    case JBool(b) => if b then "True" else "False"
    case JInt(n) => IntToStr(n)
    case JStr(s) => ReprString(s)
    case JArr(xs) =>
      "[" + Join(", ", seq(|xs|, i requires 0 <= i < |xs| => Repr(xs[i]))) + "]"
    case JObj(ms) =>
      "{" + Join(", ", seq(|ms|, i requires 0 <= i < |ms| => ReprString(ms[i].key) + ": " + Repr(ms[i].value))) + "}"
  }

  /** `str(value)`, which is also what an f-string substitutes. */
  function PyStr(j: Value): string {
    match j
    case JStr(s) => s
    case _ => Repr(j)
  }
}

=== FILE: loop.dfy ===
/**
  The worker's main loop (python/bridge_wrapper.py:298-326): build the bridge,
  which writes the ready signal, then handle standard input line by line until
  it ends or a `shutdown` exits the process.

  Parsing is not part of this model: each line arrives with the document
  `json.loads` parsed from its stripped text, `None` when that raised a decode
  error, and `Load` turns the document into the dicts Python builds. Each line
  also carries what the environment does while it is handled (whether the
  instance constructor raises, the traceback text), since that may differ from
  one command to the next.
 */
module MainLoop {
  import opened PyText
  import opened Json
  import opened Wire
  import opened Bridge

  datatype Line = Line(text: string, decoded: Option<Value>, env: Env)

  predicate Blank(line: Line) {
    Strip(line.text) == []
  }

  /** The worker after some lines: its bridge, everything written so far, and
      whether it has exited. */
  datatype Session = Session(bridge: State, sent: seq<Output>, exited: bool)

  /** The session before any input: the ready signal is already written. */
  const Start := Session(Initial, [Ready], false)

  /** One iteration of the `for line in sys.stdin` loop: a line adds one
      output unless it is blank or the process has exited, only appends, and
      nothing happens after an exit. */
  function Feed(s: Session, line: Line): (t: Session)
    ensures |t.sent| == |s.sent| + (if s.exited || Blank(line) then 0 else 1)
    ensures t.sent[..|s.sent|] == s.sent
    ensures s.exited ==> t == s
    ensures t.exited <==> s.exited || (!Blank(line) && line.decoded.Some? && HandleCommand(s.bridge, line.env, Load(line.decoded.value)).Exit?)
  {
    if s.exited || Blank(line) then s
    else
      match line.decoded
      case None => s.(sent := s.sent + [InvalidLine])
      case Some(message) => Absorb(s, HandleCommand(s.bridge, line.env, Load(message)), line.env.traceback)
  }

  /** What handling a decoded line does to the session: the reply is written,
      an exit is recorded, and an escaped exception is answered by the loop's
      own `except` clause. */
  function Absorb(s: Session, h: Handled, traceback: string): (t: Session)
    requires !s.exited
    ensures |t.sent| == |s.sent| + 1 && t.sent[..|s.sent|] == s.sent
    ensures t.bridge == (if h.Escaped? then s.bridge else h.bridge)
    ensures t.exited <==> h.Exit?
  {
    match h
    case Continue(b, out) => Session(b, s.sent + [out], false)
    case Exit(b, out) => Session(b, s.sent + [out], true)
    case Escaped(e) => s.(sent := s.sent + [LoopFailure(e, traceback)])
  }

  /** The loop as a left fold of `Feed` over the lines: it only appends to
      what has been written, never un-exits, and after an exit reads on
      without effect. */
  function Run(s: Session, lines: seq<Line>): (r: Session)
    ensures |s.sent| <= |r.sent| && r.sent[..|s.sent|] == s.sent
    ensures s.exited ==> r == s
  {
    if lines == [] then s else Feed(Run(s, lines[..|lines| - 1]), lines[|lines| - 1])
  }

  /** `main`: the ready signal comes first, the state stays consistent, and
      until a `shutdown` every non-blank line is answered exactly once. */
  function Main(lines: seq<Line>): (r: Session)
    ensures |r.sent| >= 1 && r.sent[0] == Ready
    ensures Consistent(r.bridge)
    ensures !r.exited ==> |r.sent| == 1 + CountNonBlank(lines)
  {
    var r := Run(Start, lines);
    RunKeepsConsistency(Start, lines);
    OneOutputPerNonBlankLine(Start, lines);
    assert r.sent[0] == r.sent[..|Start.sent|][0];
    r
  }

  /** Feeding two stretches of input is feeding the first, then the second. */
  lemma {:induction false} RunAppend(s: Session, a: seq<Line>, b: seq<Line>)
    ensures Run(s, a + b) == Run(Run(s, a), b)
  {
    if b == [] {
      assert a + b == a;
    } else {
      assert (a + b)[..|a + b| - 1] == a + b[..|b| - 1];
      RunAppend(s, a, b[..|b| - 1]);
    }
  }

  function CountNonBlank(lines: seq<Line>): nat {
    if lines == [] then 0
    else CountNonBlank(lines[..|lines| - 1]) + (if Blank(lines[|lines| - 1]) then 0 else 1)
  }

  /** Until the process exits, every non-blank line gets exactly one reply and
      blank lines get none. */
  lemma {:induction false} OneOutputPerNonBlankLine(s: Session, lines: seq<Line>)
    ensures !Run(s, lines).exited ==> |Run(s, lines).sent| == |s.sent| + CountNonBlank(lines)
  {
    if lines != [] {
      OneOutputPerNonBlankLine(s, lines[..|lines| - 1]);
    }
  }

  /** A line that does not decode is answered with the id-less error, and the
      lines after it are handled as if it had not been there. */
  lemma InvalidLineRecovers(s: Session, bad: Line, rest: seq<Line>)
    requires !s.exited && !Blank(bad) && bad.decoded.None?
    ensures Run(s, [bad] + rest) == Run(Session(s.bridge, s.sent + [InvalidLine], false), rest)
  {
    RunAppend(s, [bad], rest);
    assert [bad][..0] == [];
  }

  /** A decoded line is answered with `handle_command`'s reply, and the lines
      after it are read on from there; after a `shutdown` none are. A value
      that is not an object is answered by the loop with the `AttributeError`
      its `get` raised and the traceback. */
  lemma DecodedLineAnswered(s: Session, line: Line, rest: seq<Line>)
    requires !s.exited && !Blank(line) && line.decoded.Some?
    ensures var h := HandleCommand(s.bridge, line.env, Load(line.decoded.value));
      var final := Run(s, [line] + rest);
      && (h.Continue? ==> final == Run(Session(h.bridge, s.sent + [h.out], false), rest))
      && (h.Exit? ==> final == Session(h.bridge, s.sent + [h.out], true))
      && (h.Escaped? ==> final == Run(Session(s.bridge, s.sent + [LoopFailure(
            AttributeError(TypeName(line.decoded.value), "get"), line.env.traceback)], false), rest))
  {
    RunAppend(s, [line], rest);
    assert [line][..0] == [];
  }

  /** A `shutdown` command stops the server, is answered once with the
      request's id, and nothing after it is read. */
  lemma ShutdownEndsInput(s: Session, ms: seq<Member>, text: string, env: Env, rest: seq<Line>)
    requires !s.exited && Strip(text) != []
    requires CommandOf(ms) == JStr("shutdown")
    ensures var shutdown := Line(text, Some(JObj(ms)), env);
      var final := Run(s, [shutdown] + rest);
      && final.exited
      && final.bridge == s.bridge.(running := false)
      && final.sent == s.sent + [ShutdownReply(Load(IdOf(ms)), Success,
           JObj([Member("status", JStr("success")), Member("message", JStr("Bridge shutdown"))]))]
  {
    var shutdown := Line(text, Some(JObj(ms)), env);
    var loaded := Load(JObj(ms)).members;
    LoadGetOr(ms, "command", JNull);
    LoadGetOr(ms, "id", JNull);
    ShutdownStops(s.bridge, env, loaded);
    RunAppend(s, [shutdown], rest);
    assert [shutdown][..0] == [];
  }

  lemma FeedKeepsConsistency(s: Session, line: Line)
    requires Consistent(s.bridge)
    ensures Consistent(Feed(s, line).bridge)
  {
    if !s.exited && !Blank(line) && line.decoded.Some? {
      var message := Load(line.decoded.value);
      var h := HandleCommand(s.bridge, line.env, message);
      assert Feed(s, line) == Absorb(s, h, line.env.traceback);
      CommandsKeepConsistency(s.bridge, line.env, message);
    }
  }

  /** The loop keeps the bridge state consistent, starting from `__init__`. */
  lemma {:induction false} RunKeepsConsistency(s: Session, lines: seq<Line>)
    requires Consistent(s.bridge)
    ensures Consistent(Run(s, lines).bridge)
  {
    if lines != [] {
      RunKeepsConsistency(s, lines[..|lines| - 1]);
      FeedKeepsConsistency(Run(s, lines[..|lines| - 1]), lines[|lines| - 1]);
    }
  }

  lemma RunStep(s: Session, lines: seq<Line>, i: nat)
    requires i < |lines|
    ensures Run(s, lines[..i + 1]) == Feed(Run(s, lines[..i]), lines[i])
  {
    assert lines[..i + 1][..i] == lines[..i];
  }

  /** Lines after an exit change nothing. */
  lemma ExitedPrefix(s: Session, a: seq<Line>, b: seq<Line>)
    requires Run(s, a).exited
    ensures Run(s, a + b) == Run(s, a)
  {
    RunAppend(s, a, b);
  }

  /** Reading stops at the end of input or at the first exit; either way the
      session is the one the whole input gives. */
  lemma StopReading(s: Session, lines: seq<Line>, i: nat)
    requires i <= |lines|
    requires i == |lines| || Run(s, lines[..i]).exited
    ensures Run(s, lines[..i]) == Run(s, lines)
  {
    if i < |lines| {
      ExitedPrefix(s, lines[..i], lines[i..]);
      assert lines[..i] + lines[i..] == lines;
    } else {
      assert lines[..i] == lines;
    }
  }

  /** The body of the `for` loop: skip a blank line, answer an undecodable
      one, and hand a decoded one to `handle_command`. */
  method ServeLine(bridge: State, sent: seq<Output>, line: Line)
    returns (bridge': State, sent': seq<Output>, exited': bool)
    requires Consistent(bridge)
    ensures Session(bridge', sent', exited') == Feed(Session(bridge, sent, false), line)
    ensures Consistent(bridge')
  {
    bridge', sent', exited' := bridge, sent, false;
    if !Blank(line) {
      match line.decoded {
        case None =>
          sent' := sent + [InvalidLine];
        case Some(document) =>
          var message := Load(document);
          CommandsKeepConsistency(bridge, line.env, message);
          var h := HandleCommand(bridge, line.env, message);
          match h {
            case Continue(b, out) =>
              bridge', sent' := b, sent + [out];
            case Exit(b, out) =>
              bridge', sent', exited' := b, sent + [out], true;
            case Escaped(e) =>
              sent' := sent + [LoopFailure(e, line.env.traceback)];
          }
          assert Session(bridge', sent', exited') == Absorb(Session(bridge, sent, false), h, line.env.traceback);
      }
    }
  }

  /** `main` as a loop that stops reading at the first exit; it writes
      exactly what the fold says. */
  method Serve(lines: seq<Line>) returns (sent: seq<Output>, bridge: State, exited: bool)
    ensures Session(bridge, sent, exited) == Main(lines)
    ensures Consistent(bridge)
  {
    sent, bridge, exited := [Ready], Initial, false;
    var i := 0;
    assert lines[..0] == [];
    while i < |lines| && !exited
      invariant 0 <= i <= |lines|
      invariant Session(bridge, sent, exited) == Run(Start, lines[..i])
      invariant Consistent(bridge)
    {
      bridge, sent, exited := ServeLine(bridge, sent, lines[i]);
      RunStep(Start, lines, i);
      i := i + 1;
    }
    StopReading(Start, lines, i);
  }
}

=== FILE: pytext.dfy ===
/**
  The Python `str` operations the bridge relies on: `strip`, `lower`,
  `capitalize`, the `in` substring test, `replace`, and the decimal rendering
  of integers. The case operations map only the ASCII letters.
 */
module PyText {

  /** Python's `str.isspace`: the ASCII controls tab through carriage return,
      the separators 0x1c-0x1f, space, and the Unicode whitespace characters
      (next line, no-break space, ogham space mark, the general-punctuation
      spaces, the line and paragraph separators, and ideographic space). */
  predicate IsSpace(c: char) {
    || (9 <= c as int <= 13) || (28 <= c as int <= 32)
    || c as int == 0x85 || c as int == 0xA0 || c as int == 0x1680
    || (0x2000 <= c as int <= 0x200A) || c as int == 0x2028 || c as int == 0x2029
    || c as int == 0x202F || c as int == 0x205F || c as int == 0x3000
  }

  predicate AllSpace(s: string) {
    forall i :: 0 <= i < |s| ==> IsSpace(s[i])
  }

  /** The first index at or after `i` that is not whitespace, or `|s|`. */
  function SkipSpaces(s: string, i: nat): (j: nat)
    requires i <= |s|
    ensures i <= j <= |s|
    ensures forall k :: i <= k < j ==> IsSpace(s[k])
    ensures j == |s| || !IsSpace(s[j])
    decreases |s| - i
  {
    if i < |s| && IsSpace(s[i]) then SkipSpaces(s, i + 1) else i
  }

  /** The end of `s[lo..hi]` once trailing whitespace is dropped. */
  function SkipSpacesBack(s: string, lo: nat, hi: nat): (j: nat)
    requires lo <= hi <= |s|
    ensures lo <= j <= hi
    ensures forall k :: j <= k < hi ==> IsSpace(s[k])
    ensures j == lo || !IsSpace(s[j - 1])
    decreases hi
  {
    if lo < hi && IsSpace(s[hi - 1]) then SkipSpacesBack(s, lo, hi - 1) else hi
  }

  /** `r` is the slice of `s` starting at `i`, and everything around it is
      whitespace. */
  predicate TrimmedAt(s: string, r: string, i: int) {
    && 0 <= i <= |s| - |r| && s[i..i + |r|] == r
    && (forall k :: 0 <= k < i ==> IsSpace(s[k]))
    && (forall k :: i + |r| <= k < |s| ==> IsSpace(s[k]))
  }

  /** `str.strip()`: the slice of `s` left after removing whitespace from both
      ends; it neither starts nor ends with whitespace, and it is empty exactly
      when `s` is all whitespace. */
  function Strip(s: string): (r: string)
    ensures r == [] <==> AllSpace(s)
    ensures r != [] ==> !IsSpace(r[0]) && !IsSpace(r[|r| - 1])
    ensures exists i :: TrimmedAt(s, r, i)
  {
    var i := SkipSpaces(s, 0);
    var j := SkipSpacesBack(s, i, |s|);
    var r := s[i..j];
    assert TrimmedAt(s, r, i);
    assert j > i ==> r[0] == s[i] && r[|r| - 1] == s[j - 1];
    r
  }

  /** A string with no whitespace at either end is its own `strip()`. */
  lemma StripTrimmed(s: string)
    requires s == [] || (!IsSpace(s[0]) && !IsSpace(s[|s| - 1]))
    ensures Strip(s) == s
  {
    if s != [] {
      assert SkipSpaces(s, 0) == 0;
      assert SkipSpacesBack(s, 0, |s|) == |s|;
      assert s[0..|s|] == s;
    }
  }

  function LowerChar(c: char): char {
    if 'A' <= c <= 'Z' then (c as int + 32) as char else c
  }

  function UpperChar(c: char): char {
    if 'a' <= c <= 'z' then (c as int - 32) as char else c
  }

  /** `str.lower()`. */
  function Lower(s: string): string {
    seq(|s|, i requires 0 <= i < |s| => LowerChar(s[i]))
  }

  /** `str.capitalize()`: the first character upper-cased, the rest lower-cased. */
  function Capitalize(s: string): string {
    if s == [] then [] else [UpperChar(s[0])] + Lower(s[1..])
  }

  /** The strings `capitalize()` leaves alone: no lower-case letter first and
      no upper-case letter after it. */
  predicate IsCapitalized(s: string) {
    (s == [] || !('a' <= s[0] <= 'z')) && forall i :: 1 <= i < |s| ==> !('A' <= s[i] <= 'Z')
  }

  /** The case mappings touch only letters, so they keep whitespace. */
  lemma CaseChar(c: char)
    ensures IsSpace(LowerChar(c)) <==> IsSpace(c)
    ensures IsSpace(UpperChar(c)) <==> IsSpace(c)
    ensures !('A' <= LowerChar(c) <= 'Z') && !('a' <= UpperChar(c) <= 'z')
    ensures !('A' <= c <= 'Z') ==> LowerChar(c) == c
    ensures !('a' <= c <= 'z') ==> UpperChar(c) == c
    ensures LowerChar(UpperChar(c)) == LowerChar(c) && LowerChar(LowerChar(c)) == LowerChar(c)
  {
  }

  /** Capitalizing keeps the length, keeps every character up to case (and so
      every whitespace position), and yields a capitalized string; a
      capitalized string is its own capitalization. */
  lemma CapitalizeFacts(s: string)
    ensures |Capitalize(s)| == |s|
    ensures Lower(Capitalize(s)) == Lower(s)
    ensures forall i :: 0 <= i < |s| ==> (IsSpace(Capitalize(s)[i]) <==> IsSpace(s[i]))
    ensures IsCapitalized(Capitalize(s))
    ensures IsCapitalized(s) ==> Capitalize(s) == s
  {
    if s != [] {
      var c := Capitalize(s);
      assert c[0] == UpperChar(s[0]);
      CaseChar(s[0]);
      forall i | 1 <= i < |s|
        ensures c[i] == LowerChar(s[i])
      {
        assert c[i] == Lower(s[1..])[i - 1];
      }
      forall i | 0 <= i < |s|
        ensures (IsSpace(c[i]) <==> IsSpace(s[i]))
        ensures i > 0 ==> !('A' <= c[i] <= 'Z')
        ensures IsCapitalized(s) ==> c[i] == s[i]
        ensures Lower(c)[i] == Lower(s)[i]
      {
        CaseChar(s[i]);
      }
    }
  }

  /** The properties above determine `capitalize()`: a capitalized string
      equal to `t` up to case is `t.capitalize()`. */
  lemma CapitalizedUnique(r: string, t: string)
    requires IsCapitalized(r) && Lower(r) == Lower(t)
    ensures r == Capitalize(t)
  {
    CapitalizeFacts(t);
    var c := Capitalize(t);
    forall i | 0 <= i < |r|
      ensures r[i] == c[i]
    {
      assert LowerChar(r[i]) == Lower(r)[i] == Lower(t)[i] == LowerChar(c[i]);
      CaseChar(r[i]);
      CaseChar(t[i]);
      if i == 0 {
        assert c[0] == UpperChar(t[0]);
      } else {
        CaseChar(c[i]);
      }
    }
  }

  /** Capitalizing keeps a stripped string stripped. */
  lemma CapitalizeStripped(s: string)
    requires s == [] || (!IsSpace(s[0]) && !IsSpace(s[|s| - 1]))
    ensures Strip(Capitalize(s)) == Capitalize(s)
  {
    CapitalizeFacts(s);
    var c := Capitalize(s);
    assert c != [] ==> (IsSpace(c[0]) <==> IsSpace(s[0])) && (IsSpace(c[|c| - 1]) <==> IsSpace(s[|s| - 1]));
    StripTrimmed(c);
  }

  predicate StartsWith(s: string, p: string) {
    |p| <= |s| && s[..|p|] == p
  }

  /** Python's `p in s`, scanning `s` from the left. */
  predicate Contains(s: string, p: string)
    decreases |s|
  {
    StartsWith(s, p) || (s != [] && Contains(s[1..], p))
  }

  /** `p` occurs in `s` at index `i`. */
  predicate OccursAt(s: string, p: string, i: int) {
    0 <= i <= |s| - |p| && s[i..i + |p|] == p
  }

  /** The scanning definition of `p in s` agrees with "`p` occurs at some index". */
  lemma {:induction false} ContainsAt(s: string, p: string)
    ensures Contains(s, p) <==> exists i :: OccursAt(s, p, i)
    decreases |s|
  {
    if s != [] {
      ContainsAt(s[1..], p);
      if Contains(s[1..], p) {
        var i :| OccursAt(s[1..], p, i);
        assert s[i + 1..i + 1 + |p|] == s[1..][i..i + |p|];
        assert OccursAt(s, p, i + 1);
      } else if StartsWith(s, p) {
        assert OccursAt(s, p, 0);
      }
      if exists i :: OccursAt(s, p, i) {
        var i :| OccursAt(s, p, i);
        if i > 0 {
          assert s[1..][i - 1..i - 1 + |p|] == s[i..i + |p|];
          assert OccursAt(s[1..], p, i - 1);
        } else {
          assert StartsWith(s, p);
        }
      }
    } else {
      if StartsWith(s, p) {
        assert OccursAt(s, p, 0);
      }
      if exists i :: OccursAt(s, p, i) {
        var i :| OccursAt(s, p, i);
        assert StartsWith(s, p);
      }
    }
  }

  /** An occurrence in a suffix is an occurrence in the whole string. */
  lemma {:induction false} ContainsSuffix(s: string, j: nat, p: string)
    requires j <= |s|
    requires Contains(s[j..], p)
    ensures Contains(s, p)
    decreases j
  {
    if j > 0 {
      assert s[1..][j - 1..] == s[j..];
      ContainsSuffix(s[1..], j - 1, p);
    }
  }

  /** Python's `s.replace(pat, rep)`: every non-overlapping occurrence of `pat`,
      found left to right, is replaced by `rep`. */
  function Replace(s: string, pat: string, rep: string): string
    requires pat != []
    decreases |s|
  {
    if StartsWith(s, pat) then rep + Replace(s[|pat|..], pat, rep)
    else if s == [] then []
    else [s[0]] + Replace(s[1..], pat, rep)
  }

  /** `replace` leaves a string without occurrences of `pat` unchanged. */
  lemma {:induction false} ReplaceAbsent(s: string, pat: string, rep: string)
    requires pat != []
    requires !Contains(s, pat)
    ensures Replace(s, pat, rep) == s
    decreases |s|
  {
    if s != [] {
      ReplaceAbsent(s[1..], pat, rep);
    }
  }

  /** `replace` rewrites the first occurrence of `pat` and goes on after it:
      with `ReplaceAbsent`, this determines `replace` on every string. */
  lemma {:induction false} ReplaceFirst(a: string, b: string, pat: string, rep: string)
    requires pat != [] && !Contains(a + pat[..|pat| - 1], pat)
    ensures Replace(a + pat + b, pat, rep) == a + rep + Replace(b, pat, rep)
    decreases |a|
  {
    if a == [] {
      assert a + pat + b == pat + b;
      assert (pat + b)[..|pat|] == pat;
      assert (pat + b)[|pat|..] == b;
    } else {
      var head := a + pat[..|pat| - 1];
      assert (a + pat + b)[..|pat|] == head[..|pat|];
      assert !StartsWith(head, pat);
      assert head[1..] == a[1..] + pat[..|pat| - 1];
      assert (a + pat + b)[1..] == a[1..] + pat + b;
      ReplaceFirst(a[1..], b, pat, rep);
      assert a + rep + Replace(b, pat, rep) == [a[0]] + (a[1..] + rep + Replace(b, pat, rep));
    }
  }

  /** One of `a`, `b` is a prefix of the other. */
  predicate Overlap(a: string, b: string) {
    StartsWith(a, b) || StartsWith(b, a)
  }

  /** Inserting `rep` cannot create an occurrence of `q`: `rep` does not begin
      with a character of `q` past its first, and no suffix of `rep` overlaps
      `q`. */
  predicate SafeFor(rep: string, q: string)
    requires q != []
  {
    && rep != []
    && rep[0] !in q[1..]
    && forall k :: 0 <= k < |rep| ==> !Overlap(rep[k..], q)
  }

  /** A string none of whose suffixes overlaps `q`, put in front of a string
      free of `q`, gives a string free of `q`. */
  lemma {:induction false} PrependAvoids(a: string, b: string, q: string)
    requires q != []
    requires forall k :: 0 <= k < |a| ==> !Overlap(a[k..], q)
    requires !Contains(b, q)
    ensures !Contains(a + b, q)
    decreases |a|
  {
    if a != [] {
      assert !Overlap(a[0..], q);
      assert a[0..] == a;
      if |q| <= |a| {
        assert (a + b)[..|q|] == a[..|q|];
      } else {
        assert (a + b)[..|a|] == a;
      }
      assert !StartsWith(a + b, q);
      forall k | 0 <= k < |a[1..]|
        ensures !Overlap(a[1..][k..], q)
      {
        assert a[1..][k..] == a[k + 1..];
      }
      assert (a + b)[1..] == a[1..] + b;
      PrependAvoids(a[1..], b, q);
    } else {
      assert a + b == b;
    }
  }

  /** When `t` starts with `pat`, the result of `replace` starts with `rep`. */
  lemma ReplacementFirst(t: string, pat: string, rep: string, p: string)
    requires pat != [] && rep != [] && p != []
    requires StartsWith(Replace(t, pat, rep), p)
    ensures StartsWith(t, pat) ==> p[0] == rep[0]
  {
    if StartsWith(t, pat) {
      assert Replace(t, pat, rep)[0] == rep[0];
    }
  }

  /** A prefix of `Replace(t, pat, rep)` that never contains `rep`'s first
      character was already a prefix of `t`. */
  lemma {:induction false} PrefixBeforeReplacement(t: string, pat: string, rep: string, p: string)
    requires pat != [] && rep != []
    requires rep[0] !in p
    requires StartsWith(Replace(t, pat, rep), p)
    ensures StartsWith(t, p)
    decreases |t|
  {
    if p != [] {
      ReplacementFirst(t, pat, rep, p);
      if StartsWith(t, pat) {
        // the result starts with rep[0], which p does not contain
      } else if t != [] {
        var rest := Replace(t[1..], pat, rep);
        assert Replace(t, pat, rep) == [t[0]] + rest;
        assert p[0] == t[0];
        assert rest[..|p| - 1] == p[1..];
        PrefixBeforeReplacement(t[1..], pat, rep, p[1..]);
        assert t[..|p|] == [t[0]] + t[1..][..|p| - 1];
      }
    }
  }

  /** `replace(pat, rep)` never creates an occurrence of `q` when `rep` is safe
      for `q`; in particular, for `q == pat` its result has no `pat` left. */
  lemma {:induction false} ReplaceAvoids(t: string, pat: string, rep: string, q: string)
    requires pat != [] && q != []
    requires SafeFor(rep, q)
    requires q == pat || !Contains(t, q)
    ensures !Contains(Replace(t, pat, rep), q)
    decreases |t|
  {
    if StartsWith(t, pat) {
      var t' := t[|pat|..];
      if q != pat && Contains(t', q) {
        ContainsSuffix(t, |pat|, q);
      }
      ReplaceAvoids(t', pat, rep, q);
      PrependAvoids(rep, Replace(t', pat, rep), q);
    } else if t != [] {
      var rest := Replace(t[1..], pat, rep);
      ReplaceAvoids(t[1..], pat, rep, q);
      assert Replace(t, pat, rep) == [t[0]] + rest;
      if StartsWith([t[0]] + rest, q) {
        assert q[0] == t[0];
        assert rest[..|q| - 1] == q[1..];
        PrefixBeforeReplacement(t[1..], pat, rep, q[1..]);
        assert false;
      }
      assert ([t[0]] + rest)[1..] == rest;
    }
  }

  /** `", ".join(parts)` for an arbitrary separator. */
  function Join(sep: string, parts: seq<string>): string {
    if parts == [] then []
    else if |parts| == 1 then parts[0]
    else Join(sep, parts[..|parts| - 1]) + sep + parts[|parts| - 1]
  }

  predicate IsDigit(c: char) {
    '0' <= c <= '9'
  }

  function DigitChar(d: int): (c: char)
    requires 0 <= d < 10
    ensures IsDigit(c) && c as int - '0' as int == d
  {
    ('0' as int + d) as char
  }

  /** The value of a string of decimal digits, most significant first. */
  function DecimalValue(s: string): int
    requires forall i :: 0 <= i < |s| ==> IsDigit(s[i])
  {
    if s == [] then 0 else DecimalValue(s[..|s| - 1]) * 10 + (s[|s| - 1] as int - '0' as int)
  }

  /** `str(n)` for a natural number: decimal digits without leading zeros,
      whose value is `n`. */
  function NatToStr(n: nat): (r: string)
    ensures r != [] && forall i :: 0 <= i < |r| ==> IsDigit(r[i])
    ensures DecimalValue(r) == n
    ensures r[0] == '0' ==> n == 0
  {
    if n < 10 then
      var r := [DigitChar(n)];
      assert r[..0] == [];
      r
    else
      var r := NatToStr(n / 10) + [DigitChar(n % 10)];
      assert r[..|r| - 1] == NatToStr(n / 10);
      r
  }

  /** `str(n)` for an integer. */
  function IntToStr(n: int): string {
    if n < 0 then "-" + NatToStr(-n) else NatToStr(n)
  }
}

=== FILE: wire.dfy ===
/**
  The JSON objects the worker writes to standard output, one per line
  (`send_response` and `send_event`, python/bridge_wrapper.py:53-70), as an
  envelope datatype, with the exact key order of each dict literal.
 */
module Wire {
  import opened Json

  datatype Status = Success | Error

  function StatusText(s: Status): string {
    match s
    case Success => "success"
    case Error => "error"
  }

  function ParseStatus(j: Value): Option<Status> {
    if j == JStr("success") then Some(Success)
    else if j == JStr("error") then Some(Error)
    else None
  }

  const ReadyMessage := "Python bridge initialized"
  const InvalidJsonMessage := "Invalid JSON message"

  /** Everything the worker writes. */
  datatype Output =
      /** `{type: 'ready', message}`, written once when the bridge is built. */
    | Ready
      /** `{type: 'event', name, data}`, the shape `send_event` writes. */
    | Event(name: string, data: Value)
      /** `{id, status, result, error}`, the reply to every command but two. */
    | Reply(id: Value, status: Status, result: Value, error: Value)
      /** `{id, status, result}`, the reply to `shutdown`. */
    | ShutdownReply(id: Value, status: Status, result: Value)
      /** `{id, status: 'error', error, traceback}`, when dispatching raised. */
    | HandlerFailure(id: Value, reason: string, traceback: string)
      /** `{status: 'error', error: 'Invalid JSON message'}`, for an undecodable line. */
    | InvalidLine
      /** `{status: 'error', error, traceback}`, when handling a line raised
          past the dispatcher. */
    | LoopFailure(reason: string, traceback: string)

  /** The keys of `ms`, in order, are exactly `keys`. */
  predicate KeysAre(ms: seq<Member>, keys: seq<string>) {
    |ms| == |keys| && forall i :: 0 <= i < |ms| ==> ms[i].key == keys[i]
  }

  /** Reads an output back from the object written for it: the number of keys
      and the first keys pick the kind, and the values must have the kind's
      types and constants. */
  function Decode(j: Value): Option<Output> {
    if !j.JObj? then None
    else
      var ms := j.members;
      if |ms| == 2 && ms[0].key == "type" then
        if KeysAre(ms, ["type", "message"]) && ms[0].value == JStr("ready") && ms[1].value == JStr(ReadyMessage)
        then Some(Ready) else None
      else if |ms| == 2 && ms[0].key == "status" then
        if KeysAre(ms, ["status", "error"]) && ms[0].value == JStr("error") && ms[1].value == JStr(InvalidJsonMessage)
        then Some(InvalidLine) else None
      else if |ms| == 3 && ms[0].key == "type" then
        if KeysAre(ms, ["type", "name", "data"]) && ms[0].value == JStr("event") && ms[1].value.JStr?
        then Some(Event(ms[1].value.s, ms[2].value)) else None
      else if |ms| == 3 && ms[0].key == "id" then
        if KeysAre(ms, ["id", "status", "result"]) && ParseStatus(ms[1].value).Some?
        then Some(ShutdownReply(ms[0].value, ParseStatus(ms[1].value).value, ms[2].value)) else None
      else if |ms| == 3 && ms[0].key == "status" then
        if KeysAre(ms, ["status", "error", "traceback"]) && ms[0].value == JStr("error") && ms[1].value.JStr? && ms[2].value.JStr?
        then Some(LoopFailure(ms[1].value.s, ms[2].value.s)) else None
      else if |ms| == 4 && ms[2].key == "result" then
        if KeysAre(ms, ["id", "status", "result", "error"]) && ParseStatus(ms[1].value).Some?
        then Some(Reply(ms[0].value, ParseStatus(ms[1].value).value, ms[2].value, ms[3].value)) else None
      else if |ms| == 4 && ms[2].key == "error" then
        if KeysAre(ms, ["id", "status", "error", "traceback"]) && ms[1].value == JStr("error") && ms[2].value.JStr? && ms[3].value.JStr?
        then Some(HandlerFailure(ms[0].value, ms[2].value.s, ms[3].value.s)) else None
      else None
  }

  /** The dict the worker serializes for an output; reading it back gives the
      same output, so no two kinds of output are written alike. */
  function Encode(o: Output): (j: Value)
    ensures j.JObj?
    ensures Decode(j) == Some(o)
  {
    var j := match o
      case Ready =>
        JObj([Member("type", JStr("ready")), Member("message", JStr(ReadyMessage))])
      case Event(name, data) =>
        JObj([Member("type", JStr("event")), Member("name", JStr(name)), Member("data", data)])
      case Reply(id, status, result, error) =>
        JObj([Member("id", id), Member("status", JStr(StatusText(status))), Member("result", result), Member("error", error)])
      case ShutdownReply(id, status, result) =>
        JObj([Member("id", id), Member("status", JStr(StatusText(status))), Member("result", result)])
      case HandlerFailure(id, reason, traceback) =>
        JObj([Member("id", id), Member("status", JStr("error")), Member("error", JStr(reason)), Member("traceback", JStr(traceback))])
      case InvalidLine =>
        JObj([Member("status", JStr("error")), Member("error", JStr(InvalidJsonMessage))])
      case LoopFailure(reason, traceback) =>
        JObj([Member("status", JStr("error")), Member("error", JStr(reason)), Member("traceback", JStr(traceback))]);
    j
  }

  /** `send_event(name, data)`: an object tagged `'event'` that carries no
      `id`, so it cannot be mistaken for a reply. */
  function SendEvent(name: string, data: Value): (j: Value)
    ensures j.JObj? && Get(j.members, "type") == Some(JStr("event"))
    ensures !HasKey(j.members, "id")
    ensures Decode(j) == Some(Event(name, data))
  {
    Encode(Event(name, data))
  }
}
